=== FILE: README.md ===
# injector.js in Dafny

A model of the `Injector` of injector.js, a hierarchical dependency-injection
container, with proofs of the behaviour its Jasmine suite
(`spec/injectorSpec.js`) asserts. The implementation under `src/` is not part
of this model. Every operation here is written from what that suite asserts
about it.

The container has three parts.

* **The binding registry** (`registry.dfy`). Each injector maps a key to a
  rule. A key is a type identifier plus an optional name. A rule is a value,
  a type (a new instance on every request) or a singleton (one instance,
  created on the first request and cached in the rule). The operations are
  `map(type, name).toValue/toType/toSingleton`, `unmap`, `hasDirectMapping`
  and the clearing done by `teardown`.
* **Resolution along the parent chain** (`hierarchy.dfy`, `injector.dfy`).
  The injectors live in one world, a list of nodes. Each node has its own
  registry and an optional parent. `getInstance` and `hasMapping` ask the
  nearest injector, walking up from the one asked, that binds the key
  itself. A miss is the not-found error, with its exact text. Every
  injector binds `"injector"` to itself when it is created.
  `createChildInjector`, `getParentInjector` and `setParentInjector` manage
  the parent references. A world is valid when no parent chain loops and
  every cached singleton is an existing object.
* **Injection markers and `injectInto`** (`marker.dfy`, `injector.dfy`). A
  string property is an injection marker in one of four forms: `inject`,
  `inject:K`, `inject(name="Q")` and `inject(name="Q"):K`.
  `injectInto(obj)` replaces every marker property of `obj` with the
  instance its key resolves to. It then calls each method named in
  `obj.postConstructs`, once per entry, in order.

Objects are entries of a heap, and a reference is an index into it, so object
identity is index equality. Calls of post-construct methods are recorded in a
log, because their bodies are arbitrary code. Each entry holds the target,
the method name and the target's properties at the time of the call, so
the log shows that a method ran after injection. A thrown exception is the
`Failure` of a `Result`.

`properties.dfy` relates the operations to one another. `scenarios.dfy`
follows the suite's usage scenarios from a fresh injector in any valid
world.

## Model

| member | source | states |
|---|---|---|
| Values.ReadAfterWrite | spec/injectorSpec.js:145-149 | assigning `obj.p = v` is seen by the next read of `p`, and by no read of any other property |
| Registry.MapKey | spec/injectorSpec.js:48-67 | `map(k).toX` puts the builder's rule under `k` and leaves every other key's rule as it was |
| Registry.UnmapKey | spec/injectorSpec.js:171-189 | `unmap(k)` removes `k` from the registry and leaves every other key's rule as it was |
| Registry.DirectMappingsAfterEdits | spec/injectorSpec.js:171-189 | after `map(k)` the registry holds `k'` directly exactly when `k' == k` or it held `k'` before; after `unmap(k)` exactly when `k' != k` and it held `k'` before |
| Registry.MapOverwrites | spec/injectorSpec.js:321-331 | mapping a key that is already bound does not fail: the later rule replaces the earlier one |
| Registry.UnmapUndoesMap | spec/injectorSpec.js:171-189 | unmapping a key just mapped gives the registry without that key, which is the original registry when the key was new |
| Registry.NamesAreIndependent | spec/injectorSpec.js:48-67 | binding `(t, n1)` leaves `(t, n2)` and the unnamed `(t)` untouched |
| Marker.ParseSound | spec/injectorSpec.js:9-84 | every string read as a marker is spelled by a well-formed marker: the parser accepts nothing it cannot render back |
| Marker.ParseRender | spec/injectorSpec.js:9-84 | every well-formed marker is read back from the string that spells it |
| Marker.MarkerKeyExact | spec/injectorSpec.js:9-84 | a property value asks for key `k` exactly when it spells a well-formed marker naming `k` |
| Marker.BareMarker | spec/injectorSpec.js:9-19 | `inject` on property `p` asks for `(p, no name)` |
| Marker.TypedMarker | spec/injectorSpec.js:36-46 | `inject:K` asks for `(K, no name)`, whatever the property is called |
| Marker.NamedMarker | spec/injectorSpec.js:48-67 | `inject(name="Q")` on property `p` asks for `(p, Q)` |
| Marker.NamedTypedMarker | spec/injectorSpec.js:69-84 | `inject(name="Q"):K` asks for `(K, Q)` |
| Marker.MarkersStartWithKeyword | spec/injectorSpec.js:86-102 | only strings that begin with `inject` are injection points |
| Hierarchy.FindOwnerSpec | spec/injectorSpec.js:273-281 | the answering injector is the first one on the walk from the asked injector to its root that binds the key, and there is none exactly when no injector on that walk binds it; an injector that is first on the walk to bind the key is always the one that answers |
| Hierarchy.OwnerOffChain | spec/injectorSpec.js:264-271 | rebinding an injector that is not on the walk from `n` changes nothing about who answers at `n` |
| Hierarchy.AppendAcyclic | spec/injectorSpec.js:214-220 | adding a new injector whose parent exists keeps every parent chain loop-free |
| Hierarchy.ReparentAcyclic | spec/injectorSpec.js:229-249 | setting a parent that does not lie below the injector, or `null`, keeps every parent chain loop-free |
| Hierarchy.NotOnParentChain | spec/injectorSpec.js:264-271 | in a loop-free world a child is never on its parent's walk to the root |
| Hierarchy.OwnerFromParent | spec/injectorSpec.js:273-281 | an injector that does not bind a key has its parent's answering injector for it |
| Injector.NewInjector | spec/injectorSpec.js:5-7 | `new Injector()` adds a valid root injector, with no parent, that binds `"injector"` to itself and no other key, and leaves every object and the call log as they were |
| Injector.CreateChildInjector | spec/injectorSpec.js:214-220 | `createChildInjector()` adds a new, different injector whose parent is its creator, that binds `"injector"` to itself and no other key, and that leaves every object and the call log as they were |
| Injector.GetParentInjector | spec/injectorSpec.js:210-212 | `getParentInjector()` returns an injector or `null`, never anything else |
| Injector.SetParentInjector | spec/injectorSpec.js:229-249 | `setParentInjector(v)` fails with the invalid-parent error exactly when `v` is neither an injector nor `null`; otherwise it sets the parent to `v`, keeps the world valid and changes nothing else |
| Injector.Map | spec/injectorSpec.js:48-67 | `map(k).toX` on one injector changes only that injector's rule for `k`, keeps the world valid and leaves every parent as it was |
| Injector.Unmap | spec/injectorSpec.js:171-189 | `unmap(k)` removes only that injector's own binding of `k` |
| Injector.Teardown | spec/injectorSpec.js:195-206 | after `teardown()` the injector binds no key but possibly `"injector"`, and no other injector changes |
| Injector.HasDirect | spec/injectorSpec.js:356-363 | `n.hasDirectMapping(k)` holds exactly when `n`'s own registry has a rule for `k`, and then `n.hasMapping(k)` holds too |
| Injector.HasMapping | spec/injectorSpec.js:341-354 | `hasMapping(k)` holds exactly when some injector on the walk to the root binds `k` |
| Injector.GetInstance | spec/injectorSpec.js:126-193 | `getInstance(k)` throws the not-found error for `k` exactly when `hasMapping(k)` is false. Otherwise its value is what the nearest binding's rule hands out, the world stays valid, no rule but the answering one changes, at most one object is added, and a singleton that has no instance yet gets a new object built by its factory, which is returned |
| Injector.InstantiateSound | spec/injectorSpec.js:126-164 | applying a rule yields what it promises: the bound value, a new instance of the type, or the singleton's one instance, built by its factory as a new object on first use and cached; no other rule changes |
| Injector.Allocate | spec/injectorSpec.js:13-16 | a caller's object literal is a new object after all existing ones |
| Injector.Assign | spec/injectorSpec.js:145-149 | `x.p = v` is seen by reading `x.p`, leaves every other object, `x`'s `postConstructs`, the injectors and the call log alone |
| Injector.InjectFieldsCorrect | spec/injectorSpec.js:76-84 | resolving the properties front to back either fails at the first unresolvable marker or injects every marker and leaves the rest |
| Injector.InjectInto | spec/injectorSpec.js:9-124 | `injectInto(t)` fails exactly when some marker of `t` has no mapping, with the first such key; otherwise every marker is replaced by what its key resolves to, every other property is kept, no other object changes, every binding keeps its rule, every singleton that gets its instance gets a new object built by its factory, and the `postConstructs` methods are called on `t`, in order, each seeing the injected properties. Only the rules that its markers' requests reach may change, at most one object is added per marker, and an object without markers leaves the injectors and objects exactly as they were. When every value binding names an existing object, the new object a type binding makes for one marker goes to no other marker (lines 138-150 promise two unique instances) |
| Injector.InjectFieldsFrame | spec/injectorSpec.js:9-124 | resolving the markers front to back changes no rule that none of their requests reaches, and adds at most one object per marker |
| Injector.InjectFieldsUnshared | spec/injectorSpec.js:138-150 | resolving the markers front to back gives each new object of a type binding to one marker only, when every value binding names an existing object |
| Injector.MarkerCountSpec | spec/injectorSpec.js:9-124 | an object has no more markers than properties, and none exactly when no property is a marker |
| Injector.AskedKeysSpec | spec/injectorSpec.js:9-124 | the keys an object's markers ask for are exactly those some marker property carries |
| Injector.Message | spec/injectorSpec.js:166-169 | the not-found text begins with `Cannot return instance "` followed by the key's type, and for a named key then ` by name ` and the name |
| Properties.LocalWins | spec/injectorSpec.js:321-331 | a key the asked injector binds itself is answered by its own rule |
| Properties.MapThenGet | spec/injectorSpec.js:171-174 | after `map(k).toValue(v)`, `getInstance(k)` returns `v`, changes nothing, and `hasMapping` and `hasDirectMapping` hold |
| Properties.SameRulesSameAnswer | spec/injectorSpec.js:48-67 | what a request for `k` gives depends only on the parents, the rules bound under `k` and the number of objects |
| Properties.MapLeavesOtherKeys | spec/injectorSpec.js:48-67 | binding one key leaves every other key, the same type under another name included, resolving to the same value at every injector |
| Properties.DelegatesToParent | spec/injectorSpec.js:273-281 | an injector that does not bind `k` answers `getInstance(k)` and `hasMapping(k)` exactly as its parent does |
| Properties.MapOnParentSeenByChild | spec/injectorSpec.js:251-262 | a value bound on the parent after the child exists is what the child hands out, and the child has the mapping but not directly |
| Properties.DelegatesTwoLevels | spec/injectorSpec.js:304-319 | a grandchild that binds nothing for `k`, under a child that binds nothing for it, answers as the grandparent does |
| Properties.HasMappingRecurrence | spec/injectorSpec.js:348-363 | `hasMapping(k)` holds exactly when `hasDirectMapping(k)` holds or the parent has the mapping |
| Properties.RootMisses | spec/injectorSpec.js:166-169 | a root that does not bind `k` throws the not-found error for `k` |
| Properties.UnmapThenGet | spec/injectorSpec.js:171-189 | after `unmap(k)` a root throws the not-found error for `k`, and a child answers `k` as its parent |
| Properties.TeardownThenGet | spec/injectorSpec.js:195-206 | after `teardown()` a root throws the not-found error for every key but `"injector"`, and a child answers them as its parent |
| Properties.MapInvisibleOffChain | spec/injectorSpec.js:264-271 | a binding on an injector off the walk from `m` leaves unchanged who answers at `m`, whether `m` has the mapping, and whether it throws |
| Properties.ParentBlindToChild | spec/injectorSpec.js:283-291 | a binding made on a child leaves its parent's `hasMapping`, whether `getInstance` throws, and the value it hands out as they were |
| Properties.ChildShadowsParent | spec/injectorSpec.js:321-331 | a child may bind a key its parent binds; it then answers with its own value while the parent keeps its own |
| Properties.InheritedNotDirect | spec/injectorSpec.js:356-363 | after a child is created and its parent maps a key, the parent has the mapping directly, the child has it but not directly |
| Properties.SelfResolves | spec/injectorSpec.js:191-193 | an injector bound to itself under `"injector"` resolves it to itself |
| Properties.ParentAndChildResolveThemselves | spec/injectorSpec.js:333-339 | a parent and its new child each resolve `"injector"` to themselves, and they are different injectors |
| Properties.ParentOfNewInjectors | spec/injectorSpec.js:222-227 | a new injector's parent is `null`; a created child's parent is its creator, and the creator's own parent is unchanged |
| Properties.SetParentRejects | spec/injectorSpec.js:236-241 | `setParentInjector` with a string or a plain object throws the invalid-parent error |
| Properties.SetThenClearParent | spec/injectorSpec.js:243-249 | setting a parent and then `null` reads back each, and leaves the injector's bindings as they were |
| Properties.TypeGivesFreshInstances | spec/injectorSpec.js:138-150 | two requests of a type binding give two different objects, both new instances of the type |
| Properties.TypeInstancesNotShared | spec/injectorSpec.js:138-150 | of two objects a type binding hands out, changing a property of the second leaves the first reading what the factory gave it |
| Properties.SingletonGivesSameInstance | spec/injectorSpec.js:152-164 | the first request of a singleton binding with no instance yet builds a new object with the factory; a second request returns the first request's object and changes nothing |
| Properties.SingletonChangesShared | spec/injectorSpec.js:152-164 | of two objects a singleton binding hands out, a change made through the second is read through the first |
| Properties.InjectsBoundValue | spec/injectorSpec.js:9-19 | a marker whose key is answered by a value binding is replaced by that value |
| Properties.InjectsTypeInstance | spec/injectorSpec.js:21-34 | a marker whose key is answered by a type binding is replaced by a new object the type built |
| Properties.SpawnKeepsValuesLive | spec/injectorSpec.js:214-220 | creating a root or a child injector keeps every value binding naming an existing object |
| Properties.RegistryKeepsValuesLive | spec/injectorSpec.js:171-206 | `map` of an existing object, `unmap` and `teardown` keep every value binding naming an existing object |
| Properties.ReparentKeepsValuesLive | spec/injectorSpec.js:229-249 | `setParentInjector` keeps every value binding naming an existing object |
| Properties.ObjectsKeepValuesLive | spec/injectorSpec.js:145-149 | creating an object or assigning a property keeps every value binding naming an existing object |
| Properties.ResolutionKeepsValuesLive | spec/injectorSpec.js:9-164 | `getInstance` and `injectInto` keep every value binding naming an existing object |
| Properties.ValueBindingSurvivesInject | spec/injectorSpec.js:48-67 | after `injectInto` the injector that answered a key still answers it, and a value binding still hands out its value |
| Properties.CallsCount | spec/injectorSpec.js:86-102 | the calls made for `postConstructs` name each method as many times as the list does |
| Properties.PostConstructsCalledOnce | spec/injectorSpec.js:86-124 | `injectInto` calls each listed method exactly as often as it is listed, only on the target, makes no other call, and every call sees the target's markers already injected |
| Properties.ErrorTexts | spec/injectorSpec.js:166-169 | the exact texts of the not-found error, with and without a name, and of the invalid-parent error (line 239) |
| Scenarios.InjectOneField | spec/injectorSpec.js:9-19 | an object whose only property is a marker answered by a value binding holds that value after `injectInto`, which succeeds and calls the post-construct methods |
| Scenarios.InjectByPropertyName | spec/injectorSpec.js:9-19 | `{someValue: 'inject'}` ends up holding the string bound to `someValue` |
| Scenarios.InjectByExplicitType | spec/injectorSpec.js:36-46 | `{otherValue: 'inject:someValue'}` ends up holding the string bound to `someValue` |
| Scenarios.InjectNewType | spec/injectorSpec.js:21-34 | `{someValue: 'inject'}` with `someValue` mapped to a type ends up holding a new instance whose `hello` reads `Hello World` |
| Scenarios.InjectByName | spec/injectorSpec.js:48-67 | two objects with `inject(name="one")` and `inject(name="two")`, injected one after the other, hold the two values bound under those names |
| Scenarios.InjectTwoFields | spec/injectorSpec.js:69-84 | an object with two differently named marker properties, each answered by a value binding, holds both values after one `injectInto` |
| Scenarios.InjectByNamedType | spec/injectorSpec.js:69-84 | `inject(name="one"):someValue` and `inject(name="two"):someValue` on one object get the values bound under the two names |
| Scenarios.ParentMultipleLevelsUp | spec/injectorSpec.js:304-319 | a value bound on the root is handed out by root, child and grandchild; a value bound on the child by child and grandchild, while the root throws the not-found error for it |
| Scenarios.PostConstructAfterInjection | spec/injectorSpec.js:86-102 | an object listing `onPostConstruct` gets its marker injected, and that method is called exactly once, seeing the injected value |
| Scenarios.PostConstructOnNewInstance | spec/injectorSpec.js:104-124 | an instance made with `new` from a class with a marker property and `postConstructs = ['onPostConstruct']` gets its marker injected, and that method is called exactly once, seeing the injected value |
| Scenarios.TypeTwoUniqueInstances | spec/injectorSpec.js:126-150 | two type instances read `'test'`, and changing the second leaves the first at `'test'` |
| Scenarios.TwoTypeMarkers | spec/injectorSpec.js:138-150 | two markers of one object answered by one type binding both get resolved, and they receive different objects |
| Scenarios.TwoTypeMarkersDistinct | spec/injectorSpec.js:138-150 | `{x: 'inject:someObject', y: 'inject:someObject'}` with `someObject` mapped to a type ends up holding two different objects |
| Scenarios.SingletonSameInstance | spec/injectorSpec.js:152-164 | a change through the second singleton reference is read through the first |
| Scenarios.NoMappingError | spec/injectorSpec.js:166-169 | a fresh injector throws the not-found error for an unbound type, with and without a name |

## Left out

- `gulpfile.babel.js` is build tooling with no container logic.
- The `describe`/`it`/`expect` harness of the suite is not modelled; its assertions are the lemmas above.
- Construction by `new` and prototype lookup are collapsed into `Factory.instanceFields`: the properties an instance can read, whether own or inherited. A class's `postConstructs` list is `Factory.postConstructs`, which every instance carries.
- Numbers and functions are not values of the model. The `counter` that the post-construct method increments is not modelled. The call log stands in for it: one call means one increment.
- Properties are enumerated in list order. The order a JavaScript engine uses, and objects with duplicate property names, are not modelled.
- Nested injection into instances that type and singleton rules create is not modelled. Which injector would inject them, and what happens on cyclic types, is in the implementation, which is not part of this model. No scenario of the suite exercises it.
- Marker.Parse: the grammar is fixed to the four forms the suite uses. `Q` is any text without `"`, and `K` is any non-empty text. What the implementation does with near-miss strings (`inject:`, `injected`, `inject(name=one)`) is unknown. The model leaves every such string alone, and no lemma about those strings is claimed to match the implementation.
- Injector.Teardown: the model clears the whole registry, the `"injector"` self-mapping included. The contract states only that no other key is bound afterwards, because whether `teardown` restores the self-mapping is not pinned down.
- Properties.TeardownThenGet: states nothing about `"injector"` after `teardown`, for the same reason.
- Injector.SetParentInjector: requires that the new parent does not lie below the injector. No cycle check is invented, and the loop-free walk relies on this precondition.
- Injector.InjectInto: the promise that a type binding's new object goes to one marker only is stated for worlds where every value binding names an existing object (`ValuesLive`). A world that binds a reference to an object that does not exist is not one a program reaches: `ValuesLive` holds of every world the operations build when `map(...).toValue` is given existing objects, which is what a JavaScript caller always passes.
- Injector.InjectInto: a failing call yields only the error. The implementation may already have written some properties before it throws, and that partial state is not modelled.
- Injector.SetParentInjector: `undefined` and other JavaScript values are not modelled as its argument. The parent argument is an injector, `null`, a string or a plain object.
- Injector.Message: a key named `b` under type `a` and an unnamed key with type `a by name b` share one error text. The texts are kept exactly as the suite shows them.
- Injector.GetInstance: when a type or singleton rule creates an instance, the instance is not injected into. That would be the nested injection left out above.

=== FILE: hierarchy.dfy ===
/** The injector tree: nodes with a registry and an optional parent, the walk
    from a node up to its root, and the search for the nearest node on that
    walk that holds a key. Nodes are identified by their index. */
module Hierarchy {
  import opened Wrappers
  import opened Values
  import opened Registry

  /** One injector: its own registry and its parent reference (`None` for a
      root). Parents hold no references to their children. */
  datatype Node = Node(registry: Registry, parent: Option<NodeId>)

  /** Node `n` exists and its own registry holds `k`. */
  predicate Holds(ns: seq<Node>, n: NodeId, k: Key) {
    n < |ns| && k in ns[n].registry
  }

  /** From `n`, following parent references, a root is reached within `fuel`
      steps, passing only through existing nodes. */
  predicate Rooted(ns: seq<Node>, n: NodeId, fuel: nat)
    decreases fuel
  {
    && n < |ns|
    && match ns[n].parent
       case None => true
       case Some(p) => fuel > 0 && Rooted(ns, p, fuel - 1)
  }

  /** No parent chain loops: every node reaches a root within as many steps
      as there are nodes. */
  predicate Acyclic(ns: seq<Node>) {
    forall n :: 0 <= n < |ns| ==> Rooted(ns, n, |ns|)
  }

  /** The nodes met walking up from `n`: `n` itself, its parent, and so on,
      for at most `fuel` parent steps. */
  function Chain(ns: seq<Node>, n: NodeId, fuel: nat): (c: seq<NodeId>)
    ensures forall i :: 0 <= i < |c| ==> c[i] < |ns|
    ensures n < |ns| ==> c != [] && c[0] == n
    decreases fuel
  {
    if n >= |ns| then []
    else
      match ns[n].parent
      case None => [n]
      case Some(p) => if fuel == 0 then [n] else [n] + Chain(ns, p, fuel - 1)
  }

  /** `o` is the first node of `chain` whose own registry holds `k`. */
  ghost predicate FirstHolder(ns: seq<Node>, chain: seq<NodeId>, k: Key, o: NodeId) {
    exists i :: 0 <= i < |chain| && chain[i] == o && Holds(ns, o, k) &&
      forall j :: 0 <= j < i ==> !Holds(ns, chain[j], k)
  }

  /** The node whose rule answers a request for `k` made at `n`: the nearest
      one, walking up from `n`, that holds `k` itself. */
  function FindOwner(ns: seq<Node>, n: NodeId, k: Key, fuel: nat): Option<NodeId>
    decreases fuel
  {
    if n >= |ns| then None
    else if k in ns[n].registry then Some(n)
    else
      match ns[n].parent
      case None => None
      case Some(p) => if fuel == 0 then None else FindOwner(ns, p, k, fuel - 1)
  }

  /** `r` is a correct search result for `k` along `chain`: nothing exactly
      when no node of the chain holds `k`, and otherwise the first that does. */
  ghost predicate SearchResult(ns: seq<Node>, chain: seq<NodeId>, k: Key, r: Option<NodeId>) {
    && (r.None? <==> forall c :: c in chain ==> !Holds(ns, c, k))
    && (r.Some? ==> FirstHolder(ns, chain, k, r.value))
  }

  /** A result for the chain above `n` is one for `n`'s chain as well, when
      `n` itself does not hold `k`. */
  lemma SearchResultCons(ns: seq<Node>, n: NodeId, rest: seq<NodeId>, k: Key, r: Option<NodeId>)
    requires !Holds(ns, n, k) && SearchResult(ns, rest, k, r)
    ensures SearchResult(ns, [n] + rest, k, r)
  {
    var c := [n] + rest;
    if r.Some? {
      var i :| 0 <= i < |rest| && rest[i] == r.value && Holds(ns, r.value, k) &&
        forall j :: 0 <= j < i ==> !Holds(ns, rest[j], k);
      assert c[i + 1] == r.value;
      forall j | 0 <= j < i + 1
        ensures !Holds(ns, c[j], k)
      {
        if j > 0 {
          assert c[j] == rest[j - 1];
        }
      }
    }
  }

  /** The search finds nothing exactly when no node of the walk holds `k`,
      and otherwise finds the first node of the walk that does. */
  lemma {:induction false} FindOwnerSpec(ns: seq<Node>, n: NodeId, k: Key, fuel: nat)
    ensures FindOwner(ns, n, k, fuel).None? <==> forall c :: c in Chain(ns, n, fuel) ==> !Holds(ns, c, k)
    ensures FindOwner(ns, n, k, fuel).Some? ==> FirstHolder(ns, Chain(ns, n, fuel), k, FindOwner(ns, n, k, fuel).value)
    ensures forall o: NodeId :: FirstHolder(ns, Chain(ns, n, fuel), k, o) ==> FindOwner(ns, n, k, fuel) == Some(o)
    decreases fuel
  {
    if n < |ns| && k in ns[n].registry {
      assert Chain(ns, n, fuel)[0] == n && Holds(ns, n, k);
    } else if n < |ns| && ns[n].parent.Some? && fuel > 0 {
      var p := ns[n].parent.value;
      FindOwnerSpec(ns, p, k, fuel - 1);
      assert Chain(ns, n, fuel) == [n] + Chain(ns, p, fuel - 1);
      SearchResultCons(ns, n, Chain(ns, p, fuel - 1), k, FindOwner(ns, p, k, fuel - 1));
    }
    var chain := Chain(ns, n, fuel);
    forall o: NodeId | FirstHolder(ns, chain, k, o)
      ensures FindOwner(ns, n, k, fuel) == Some(o)
    {
      var i :| 0 <= i < |chain| && chain[i] == o && Holds(ns, o, k);
      assert chain[i] in chain;
      FirstHolderUnique(ns, chain, k, o, FindOwner(ns, n, k, fuel).value);
    }
  }

  /** One step of the search: a node that does not hold `k` passes the
      search on to its parent with one step less. */
  lemma FindOwnerStep(ns: seq<Node>, n: NodeId, p: NodeId, k: Key, fuel: nat)
    requires n < |ns| && ns[n].parent == Some(p) && k !in ns[n].registry && fuel > 0
    ensures FindOwner(ns, n, k, fuel) == FindOwner(ns, p, k, fuel - 1)
  {
  }

  /** Whether the first holder on a chain is unique: two first holders are
      the same node. */
  lemma FirstHolderUnique(ns: seq<Node>, chain: seq<NodeId>, k: Key, o1: NodeId, o2: NodeId)
    requires FirstHolder(ns, chain, k, o1) && FirstHolder(ns, chain, k, o2)
    ensures o1 == o2
  {
    var i1 :| 0 <= i1 < |chain| && chain[i1] == o1 && Holds(ns, o1, k) &&
      forall j :: 0 <= j < i1 ==> !Holds(ns, chain[j], k);
    var i2 :| 0 <= i2 < |chain| && chain[i2] == o2 && Holds(ns, o2, k) &&
      forall j :: 0 <= j < i2 ==> !Holds(ns, chain[j], k);
    if i1 < i2 {
      assert false;
    } else if i2 < i1 {
      assert false;
    }
  }

  // ---------------------------------------------------------------------
  // How the walk depends on the nodes

  /** Two node lists of equal length whose nodes have the same parents. */
  predicate SameParents(ns0: seq<Node>, ns1: seq<Node>) {
    && |ns0| == |ns1|
    && forall i :: 0 <= i < |ns0| ==> ns0[i].parent == ns1[i].parent
  }

  /** Every node holds `k` in `ns1` exactly when it does in `ns0`. */
  predicate SameHolders(ns0: seq<Node>, ns1: seq<Node>, k: Key)
    requires |ns0| == |ns1|
  {
    forall i :: 0 <= i < |ns0| ==> (k in ns0[i].registry <==> k in ns1[i].registry)
  }

  /** Same parents and the same registry key sets: the two lists differ at
      most in the rules (a singleton's cache, say). */
  predicate SameShape(ns0: seq<Node>, ns1: seq<Node>) {
    && SameParents(ns0, ns1)
    && forall i :: 0 <= i < |ns0| ==> ns0[i].registry.Keys == ns1[i].registry.Keys
  }

  /** The parents alone decide every chain. */
  lemma {:induction false} ParentsDecideChain(ns0: seq<Node>, ns1: seq<Node>, n: NodeId, fuel: nat)
    requires SameParents(ns0, ns1)
    ensures Rooted(ns0, n, fuel) == Rooted(ns1, n, fuel)
    ensures Chain(ns0, n, fuel) == Chain(ns1, n, fuel)
    decreases fuel
  {
    if n < |ns0| && ns0[n].parent.Some? && fuel > 0 {
      ParentsDecideChain(ns0, ns1, ns0[n].parent.value, fuel - 1);
    }
  }

  /** The parents and the holders of `k` alone decide who owns `k`. */
  lemma {:induction false} HoldersDecideOwner(ns0: seq<Node>, ns1: seq<Node>, n: NodeId, k: Key, fuel: nat)
    requires SameParents(ns0, ns1) && SameHolders(ns0, ns1, k)
    ensures FindOwner(ns0, n, k, fuel) == FindOwner(ns1, n, k, fuel)
    decreases fuel
  {
    if n < |ns0| {
      assert ns0[n].parent == ns1[n].parent;
      assert k in ns0[n].registry <==> k in ns1[n].registry;
      if k !in ns0[n].registry && ns0[n].parent.Some? && fuel > 0 {
        HoldersDecideOwner(ns0, ns1, ns0[n].parent.value, k, fuel - 1);
      }
    }
  }

  /** Changing the registry of a node off the chain of `n` does not change
      who owns any key as seen from `n`. */
  lemma {:induction false} OwnerOffChain(ns: seq<Node>, x: NodeId, reg: Registry, n: NodeId, k: Key, fuel: nat)
    requires x < |ns| && x !in Chain(ns, n, fuel)
    ensures FindOwner(ns[x := Node(reg, ns[x].parent)], n, k, fuel) == FindOwner(ns, n, k, fuel)
    decreases fuel
  {
    var ns' := ns[x := Node(reg, ns[x].parent)];
    if n < |ns| && ns[n].parent.Some? && fuel > 0 {
      var p := ns[n].parent.value;
      assert Chain(ns, n, fuel) == [n] + Chain(ns, p, fuel - 1);
      OwnerOffChain(ns, x, reg, p, k, fuel - 1);
    }
  }

  /** Whether every node is rooted depends on the parents alone. */
  lemma ParentsDecideAcyclic(ns0: seq<Node>, ns1: seq<Node>)
    requires SameParents(ns0, ns1) && Acyclic(ns0)
    ensures Acyclic(ns1)
  {
    forall n | 0 <= n < |ns1|
      ensures Rooted(ns1, n, |ns1|)
    {
      ParentsDecideChain(ns0, ns1, n, |ns0|);
    }
  }

  /** Appending nodes changes nothing about the walk from an existing node. */
  lemma {:induction false} ExtendWalk(ns: seq<Node>, more: seq<Node>, n: NodeId, k: Key, fuel: nat)
    requires Rooted(ns, n, fuel)
    ensures Rooted(ns + more, n, fuel)
    ensures Chain(ns + more, n, fuel) == Chain(ns, n, fuel)
    ensures FindOwner(ns + more, n, k, fuel) == FindOwner(ns, n, k, fuel)
    decreases fuel
  {
    assert (ns + more)[n] == ns[n];
    if ns[n].parent.Some? {
      ExtendWalk(ns, more, ns[n].parent.value, k, fuel - 1);
    }
  }

  /** More fuel changes nothing once a root is reached. */
  lemma {:induction false} MoreFuel(ns: seq<Node>, n: NodeId, k: Key, fuel: nat, more: nat)
    requires Rooted(ns, n, fuel) && fuel <= more
    ensures Rooted(ns, n, more)
    ensures Chain(ns, n, more) == Chain(ns, n, fuel)
    ensures FindOwner(ns, n, k, more) == FindOwner(ns, n, k, fuel)
    decreases fuel
  {
    if ns[n].parent.Some? {
      MoreFuel(ns, ns[n].parent.value, k, fuel - 1, more - 1);
    }
  }

  /** In an acyclic list a parent exists and is itself rooted. */
  lemma ParentRooted(ns: seq<Node>, n: NodeId, p: NodeId)
    requires Acyclic(ns) && n < |ns| && ns[n].parent == Some(p)
    ensures p < |ns| && Rooted(ns, p, |ns| - 1)
  {
    var N := |ns|;
    assert Rooted(ns, n, N);
    assert N > 0 && Rooted(ns, p, N - 1);
  }

  /** A rooted parent answers for a child that does not hold `k`. */
  lemma OwnerViaParent(ns: seq<Node>, n: NodeId, p: NodeId, k: Key)
    requires n < |ns| && ns[n].parent == Some(p) && k !in ns[n].registry
    requires p < |ns| && Rooted(ns, p, |ns| - 1)
    ensures FindOwner(ns, n, k, |ns|) == FindOwner(ns, p, k, |ns|)
  {
    FindOwnerStep(ns, n, p, k, |ns|);
    MoreFuel(ns, p, k, |ns| - 1, |ns|);
  }

  /** In an acyclic list, a node that does not hold `k` has the same owner
      for `k` as its parent. */
  lemma OwnerFromParent(ns: seq<Node>, n: NodeId, p: NodeId, k: Key)
    requires Acyclic(ns) && n < |ns| && ns[n].parent == Some(p) && k !in ns[n].registry
    ensures p < |ns| && FindOwner(ns, n, k, |ns|) == FindOwner(ns, p, k, |ns|)
  {
    ParentRooted(ns, n, p);
    OwnerViaParent(ns, n, p, k);
  }

  // ---------------------------------------------------------------------
  // A rooted chain never repeats a node, so it is never longer than the
  // node list.

  /** The tail of a rooted chain from position `d` is the chain of the node
      found there. */
  lemma {:induction false} ChainSuffix(ns: seq<Node>, n: NodeId, fuel: nat, d: nat)
    requires Rooted(ns, n, fuel) && d < |Chain(ns, n, fuel)|
    ensures d <= fuel
    ensures Rooted(ns, Chain(ns, n, fuel)[d], fuel - d)
    ensures Chain(ns, n, fuel)[d..] == Chain(ns, Chain(ns, n, fuel)[d], fuel - d)
    decreases d
  {
    if d > 0 {
      var p := ns[n].parent.value;
      assert Chain(ns, n, fuel) == [n] + Chain(ns, p, fuel - 1);
      ChainSuffix(ns, p, fuel - 1, d - 1);
      assert Chain(ns, n, fuel)[d..] == Chain(ns, p, fuel - 1)[d - 1..];
    }
  }

  /** Two positions of a rooted chain hold different nodes: the chains
      from both would be the same, yet of different lengths. */
  lemma {:induction false} ChainPairDistinct(ns: seq<Node>, n: NodeId, fuel: nat, i: nat, j: nat)
    requires Rooted(ns, n, fuel) && i < j < |Chain(ns, n, fuel)|
    ensures Chain(ns, n, fuel)[i] != Chain(ns, n, fuel)[j]
  {
    var c := Chain(ns, n, fuel);
    ChainSuffix(ns, n, fuel, i);
    ChainSuffix(ns, n, fuel, j);
    var x := c[j];
    var fi: nat, fj: nat := fuel - i, fuel - j;
    assert c[j..] == Chain(ns, x, fj);
    if c[i] == x {
      assert c[i..] == Chain(ns, x, fi);
      MoreFuel(ns, x, InjectorKey, fj, fi);
      assert false;
    }
  }

  /** Along a rooted chain no node occurs twice. */
  lemma ChainDistinct(ns: seq<Node>, n: NodeId, fuel: nat)
    requires Rooted(ns, n, fuel)
    ensures forall i, j :: 0 <= i < j < |Chain(ns, n, fuel)| ==> Chain(ns, n, fuel)[i] != Chain(ns, n, fuel)[j]
  {
    forall i, j | 0 <= i < j < |Chain(ns, n, fuel)|
      ensures Chain(ns, n, fuel)[i] != Chain(ns, n, fuel)[j]
    {
      ChainPairDistinct(ns, n, fuel, i, j);
    }
  }

  /** A rooted chain of `m` nodes reaches its root in `m - 1` steps. */
  lemma {:induction false} RootedByLength(ns: seq<Node>, n: NodeId, fuel: nat)
    requires Rooted(ns, n, fuel)
    ensures Rooted(ns, n, |Chain(ns, n, fuel)| - 1)
    decreases fuel
  {
    if ns[n].parent.Some? {
      RootedByLength(ns, ns[n].parent.value, fuel - 1);
    }
  }

  /** A sequence of distinct numbers below `bound` has at most `bound` elements. */
  lemma {:induction false} DistinctBelow(c: seq<nat>, bound: nat)
    requires forall i :: 0 <= i < |c| ==> c[i] < bound
    requires forall i, j :: 0 <= i < j < |c| ==> c[i] != c[j]
    ensures |c| <= bound
    decreases bound
  {
    assert c != [] ==> c[0] < bound;
    if c == [] {
    } else if k :| 0 <= k < |c| && c[k] == bound - 1 {
      var d := c[..k] + c[k + 1..];
      assert |d| == |c| - 1;
      forall i | 0 <= i < |d|
        ensures d[i] == (if i < k then c[i] else c[i + 1])
      {
      }
      forall i | 0 <= i < |d|
        ensures d[i] < bound - 1
      {
        if i < k {
          assert c[i] != c[k];
        } else {
          assert c[i + 1] != c[k];
        }
      }
      forall i, j | 0 <= i < j < |d|
        ensures d[i] != d[j]
      {
        var i', j' := if i < k then i else i + 1, if j < k then j else j + 1;
        assert d[i] == c[i'] && d[j] == c[j'] && i' < j';
      }
      DistinctBelow(d, bound - 1);
    } else {
      assert forall i :: 0 <= i < |c| ==> c[i] != bound - 1;
      DistinctBelow(c, bound - 1);
    }
  }

  /** A node that reaches a root at all reaches it within as many steps as
      there are nodes. */
  lemma RootedWithinSize(ns: seq<Node>, n: NodeId, fuel: nat)
    requires Rooted(ns, n, fuel)
    ensures Rooted(ns, n, |ns|)
  {
    var c := Chain(ns, n, fuel);
    ChainDistinct(ns, n, fuel);
    DistinctBelow(c, |ns|);
    RootedByLength(ns, n, fuel);
    MoreFuel(ns, n, InjectorKey, |c| - 1, |ns|);
  }

  // ---------------------------------------------------------------------
  // Adding nodes and moving a node under another parent

  /** A new node whose parent (if any) exists keeps every node rooted. */
  lemma AppendAcyclic(ns: seq<Node>, node: Node)
    requires Acyclic(ns)
    requires node.parent.Some? ==> node.parent.value < |ns|
    ensures Acyclic(ns + [node])
  {
    var ns' := ns + [node];
    forall m | 0 <= m < |ns'|
      ensures Rooted(ns', m, |ns'|)
    {
      if m < |ns| {
        ExtendWalk(ns, [node], m, InjectorKey, |ns|);
        MoreFuel(ns', m, InjectorKey, |ns|, |ns'|);
      } else if node.parent.Some? {
        ExtendWalk(ns, [node], node.parent.value, InjectorKey, |ns|);
      }
    }
  }

  /** `ns` with node `n` moved under `target` (or made a root). */
  function Reparent(ns: seq<Node>, n: NodeId, target: Option<NodeId>): seq<Node>
    requires n < |ns|
  {
    ns[n := ns[n].(parent := target)]
  }

  /** A node whose chain avoids `n` keeps its chain when `n` is moved. */
  lemma {:induction false} AvoidingChainSurvives(ns: seq<Node>, n: NodeId, target: Option<NodeId>, x: NodeId, fuel: nat)
    requires n < |ns| && Rooted(ns, x, fuel) && n !in Chain(ns, x, fuel)
    ensures Rooted(Reparent(ns, n, target), x, fuel)
    decreases fuel
  {
    if ns[x].parent.Some? {
      var p := ns[x].parent.value;
      assert Chain(ns, x, fuel) == [x] + Chain(ns, p, fuel - 1);
      AvoidingChainSurvives(ns, n, target, p, fuel - 1);
    }
  }

  /** After moving `n` under a rooted `target`, a node that was rooted
      within `a` steps is rooted within `a + b + 1`, where `b` bounds the
      target's own walk. */
  lemma {:induction false} ReparentRooted(ns: seq<Node>, n: NodeId, target: Option<NodeId>, m: NodeId, a: nat, b: nat)
    requires n < |ns| && Rooted(ns, m, a)
    requires target.Some? ==> Rooted(Reparent(ns, n, target), target.value, b)
    ensures Rooted(Reparent(ns, n, target), m, a + b + 1)
    decreases a
  {
    var ns' := Reparent(ns, n, target);
    if m == n {
      if target.Some? {
        MoreFuel(ns', target.value, InjectorKey, b, a + b);
      }
    } else if ns[m].parent.Some? {
      ReparentRooted(ns, n, target, ns[m].parent.value, a - 1, b);
    }
  }

  /** Moving `n` under a node that is not below it, or making `n` a root,
      keeps every node rooted. */
  lemma ReparentAcyclic(ns: seq<Node>, n: NodeId, target: Option<NodeId>)
    requires Acyclic(ns) && n < |ns|
    requires target.Some? ==> target.value < |ns| && n !in Chain(ns, target.value, |ns|)
    ensures Acyclic(Reparent(ns, n, target))
  {
    var ns' := Reparent(ns, n, target);
    if target.Some? {
      AvoidingChainSurvives(ns, n, target, target.value, |ns|);
    }
    forall m | 0 <= m < |ns'|
      ensures Rooted(ns', m, |ns'|)
    {
      ReparentRooted(ns, n, target, m, |ns|, |ns|);
      RootedWithinSize(ns', m, |ns| + |ns| + 1);
    }
  }

  /** In an acyclic tree a node never lies on its parent's chain. */
  lemma NotOnParentChain(ns: seq<Node>, c: NodeId, p: NodeId)
    requires Acyclic(ns) && c < |ns| && ns[c].parent == Some(p)
    ensures c !in Chain(ns, p, |ns|)
  {
    var fuel := |ns|;
    var chain := Chain(ns, c, fuel);
    assert chain == [c] + Chain(ns, p, fuel - 1);
    ChainDistinct(ns, c, fuel);
    MoreFuel(ns, p, InjectorKey, fuel - 1, fuel);
    var up := Chain(ns, p, fuel - 1);
    forall i | 0 <= i < |up|
      ensures up[i] != c
    {
      assert up[i] == chain[i + 1] && c == chain[0];
    }
  }
}

=== FILE: injector.dfy ===
/** The injector container. All injectors, and all objects they create or
    inject into, live in one `World`; an injector is the index of its node
    and an object the index of its heap cell. Every public operation of an
    injector is a function from a world to a new world (and a result), or to
    a failure standing for the exception the operation throws. */
module Injector {
  import opened Wrappers
  import opened Values
  import opened Registry
  import opened Marker
  import opened Hierarchy

  /** A call `target[method]()` made by `injectInto`, with the properties
      the target had when the method ran. */
  datatype Call = Call(target: Ref, name: string, seen: seq<Field>)

  /** All injectors, all objects, and every post-construct call made so far. */
  datatype World = World(nodes: seq<Node>, heap: seq<Object>, log: seq<Call>)

  /** The two exceptions an injector throws. */
  datatype Error = NotFound(key: Key) | NotAnInjector

  /** What a resolution yields: the instance and the world after it (a type
      or first singleton resolution allocates an object). */
  datatype Resolved = Resolved(value: Value, world: World)

  /** A freshly made injector and the world that now holds it. */
  datatype Spawned = Spawned(world: World, id: NodeId)

  /** How every not-found text begins. */
  const NotFoundLead: string := "Cannot return instance \""

  /** The exact text of the exception for each error. A not-found text
      names the key it was thrown for: its type, then its name if it has
      one. */
  function Message(e: Error): (m: string)
    ensures e.NotFound? ==> NotFoundLead + e.key.typeId <= m
    ensures e.NotFound? && e.key.name.Some? ==>
      NotFoundLead + e.key.typeId + " by name " + e.key.name.value <= m
  {
    match e
    case NotFound(Key(t, None)) =>
      NotFoundLead + t + "\" because no mapping has been found"
    case NotFound(Key(t, Some(name))) =>
      NotFoundLead + t + " by name " + name + "\" because no mapping has been found"
    case NotAnInjector =>
      "Cannot set the parentInjector because it is not an injector"
  }

  /** A cached singleton instance is an existing object. */
  predicate CacheLive(rule: Rule, heapSize: nat) {
    rule.SingletonRule? && rule.cached.Some? ==> rule.cached.value < heapSize
  }

  /** The world invariant: no parent chain loops, and every cached singleton
      is an existing object. */
  predicate Valid(w: World) {
    && Acyclic(w.nodes)
    && forall n, k :: 0 <= n < |w.nodes| && k in w.nodes[n].registry ==>
         CacheLive(w.nodes[n].registry[k], |w.heap|)
  }

  /** The injectors met walking from `n` to its root. */
  function Ancestors(w: World, n: NodeId): seq<NodeId> {
    Chain(w.nodes, n, |w.nodes|)
  }

  /** The injector whose rule answers a request for `k` made at `n`. */
  function Owner(w: World, n: NodeId, k: Key): Option<NodeId> {
    FindOwner(w.nodes, n, k, |w.nodes|)
  }

  // ---------------------------------------------------------------------
  // Construction and the parent reference

  function SelfRegistry(id: NodeId): Registry {
    map[InjectorKey := ValueRule(Inj(id))]
  }

  /** Node `n` maps `"injector"` to itself. */
  predicate SelfMapped(w: World, n: NodeId) {
    n < |w.nodes| && Lookup(w.nodes[n].registry, InjectorKey) == Some(ValueRule(Inj(n)))
  }

  /** A new injector with the given parent: it maps `"injector"` to itself
      and nothing else. */
  function AddNode(w: World, parent: Option<NodeId>): (r: Spawned)
    requires Valid(w)
    requires parent.Some? ==> parent.value < |w.nodes|
    ensures Valid(r.world)
    ensures r.id == |w.nodes| && |r.world.nodes| == r.id + 1 && r.world.nodes[..r.id] == w.nodes
    ensures r.world.heap == w.heap && r.world.log == w.log
    ensures r.world.nodes[r.id].parent == parent
    ensures SelfMapped(r.world, r.id)
    ensures forall k :: k != InjectorKey ==> !HasDirectMapping(r.world.nodes[r.id].registry, k)
  {
    var node := Node(SelfRegistry(|w.nodes|), parent);
    AppendAcyclic(w.nodes, node);
    var w' := w.(nodes := w.nodes + [node]);
    assert w'.nodes[..|w.nodes|] == w.nodes;
    Spawned(w', |w.nodes|)
  }

  /** `new Injector()`: a root injector. */
  function NewInjector(w: World): (r: Spawned)
    requires Valid(w)
    ensures Valid(r.world) && r.id == |w.nodes| && |r.world.nodes| == r.id + 1 && r.world.nodes[..r.id] == w.nodes
    ensures r.world.heap == w.heap && r.world.log == w.log
    ensures r.world.nodes[r.id].parent.None?
    ensures SelfMapped(r.world, r.id)
    ensures forall k :: k != InjectorKey ==> !HasDirectMapping(r.world.nodes[r.id].registry, k)
  {
    AddNode(w, None)
  }

  /** `n.createChildInjector()`: a new injector whose parent is `n`; `n`
      itself, its parent included, is left as it was. */
  function CreateChildInjector(w: World, n: NodeId): (r: Spawned)
    requires Valid(w) && n < |w.nodes|
    ensures Valid(r.world) && r.id == |w.nodes| && |r.world.nodes| == r.id + 1 && r.world.nodes[..r.id] == w.nodes
    ensures r.world.heap == w.heap && r.world.log == w.log
    ensures r.id != n && r.world.nodes[r.id].parent == Some(n)
    ensures SelfMapped(r.world, r.id)
    ensures forall k :: k != InjectorKey ==> !HasDirectMapping(r.world.nodes[r.id].registry, k)
  {
    AddNode(w, Some(n))
  }

  /** `n.getParentInjector()`: the parent injector, or `null` for a root. */
  function GetParentInjector(w: World, n: NodeId): (v: Value)
    requires n < |w.nodes|
    ensures v.Inj? || v.Null?
  {
    match w.nodes[n].parent
    case None => Null
    case Some(p) => Inj(p)
  }

  /** `n.setParentInjector(v)`: accepts an injector or `null`; any other
      value throws, and then nothing has changed. The new parent must not
      lie below `n`: the model does not handle loops in the chain. */
  function SetParentInjector(w: World, n: NodeId, v: Value): (r: Result<World, Error>)
    requires Valid(w) && n < |w.nodes|
    requires v.Inj? ==> v.node < |w.nodes| && n !in Ancestors(w, v.node)
    ensures r.Failure? <==> !(v.Inj? || v.Null?)
    ensures r.Failure? ==> r.error == NotAnInjector
    ensures r.Success? ==> Valid(r.value) && |r.value.nodes| == |w.nodes|
    ensures r.Success? ==> GetParentInjector(r.value, n) == v
    ensures r.Success? ==> r.value.nodes[n].registry == w.nodes[n].registry
    ensures r.Success? ==> forall m :: 0 <= m < |w.nodes| && m != n ==> r.value.nodes[m] == w.nodes[m]
    ensures r.Success? ==> r.value.heap == w.heap && r.value.log == w.log
  {
    match v
    case Inj(p) =>
      ReparentAcyclic(w.nodes, n, Some(p));
      Success(w.(nodes := Reparent(w.nodes, n, Some(p))))
    case Null =>
      ReparentAcyclic(w.nodes, n, None);
      Success(w.(nodes := Reparent(w.nodes, n, None)))
    case _ => Failure(NotAnInjector)
  }

  // ---------------------------------------------------------------------
  // The registry operations of one injector

  /** The world with node `n`'s registry replaced. */
  function WithRegistry(w: World, n: NodeId, reg: Registry): (w': World)
    requires Valid(w) && n < |w.nodes|
    requires forall k :: k in reg ==> CacheLive(reg[k], |w.heap|)
    ensures Valid(w') && SameParents(w.nodes, w'.nodes)
    ensures w'.nodes[n].registry == reg
    ensures forall m :: 0 <= m < |w.nodes| && m != n ==> w'.nodes[m] == w.nodes[m]
    ensures w'.heap == w.heap && w'.log == w.log
  {
    var w' := w.(nodes := w.nodes[n := Node(reg, w.nodes[n].parent)]);
    ParentsDecideAcyclic(w.nodes, w'.nodes);
    w'
  }

  /** `n.map(k).toValue(v)` / `.toType(f)` / `.toSingleton(f)`: bind `k` on
      `n` alone, replacing any rule `n` had for it; re-binding a key an
      ancestor binds is allowed. */
  function Map(w: World, n: NodeId, k: Key, b: Binding): (w': World)
    requires Valid(w) && n < |w.nodes|
    ensures Valid(w') && SameParents(w.nodes, w'.nodes)
    ensures Lookup(w'.nodes[n].registry, k) == Some(RuleOf(b))
    ensures forall k' :: k' != k ==> Lookup(w'.nodes[n].registry, k') == Lookup(w.nodes[n].registry, k')
    ensures forall m :: 0 <= m < |w.nodes| && m != n ==> w'.nodes[m] == w.nodes[m]
    ensures w'.heap == w.heap && w'.log == w.log
  {
    WithRegistry(w, n, MapKey(w.nodes[n].registry, k, b))
  }

  /** `n.unmap(k)`: drop `n`'s own rule for `k`, if any; ancestors and
      descendants keep theirs. */
  function Unmap(w: World, n: NodeId, k: Key): (w': World)
    requires Valid(w) && n < |w.nodes|
    ensures Valid(w') && SameParents(w.nodes, w'.nodes)
    ensures !HasDirectMapping(w'.nodes[n].registry, k)
    ensures forall k' :: k' != k ==> Lookup(w'.nodes[n].registry, k') == Lookup(w.nodes[n].registry, k')
    ensures forall m :: 0 <= m < |w.nodes| && m != n ==> w'.nodes[m] == w.nodes[m]
    ensures w'.heap == w.heap && w'.log == w.log
  {
    WithRegistry(w, n, UnmapKey(w.nodes[n].registry, k))
  }

  /** `n.teardown()`: drop every binding of `n`; no other injector changes. */
  function Teardown(w: World, n: NodeId): (w': World)
    requires Valid(w) && n < |w.nodes|
    ensures Valid(w') && SameParents(w.nodes, w'.nodes)
    ensures forall k :: k != InjectorKey ==> !HasDirectMapping(w'.nodes[n].registry, k)
    ensures forall m :: 0 <= m < |w.nodes| && m != n ==> w'.nodes[m] == w.nodes[m]
    ensures w'.heap == w.heap && w'.log == w.log
  {
    WithRegistry(w, n, map[])
  }

  /** `n.hasDirectMapping(k)`: `n` itself binds `k`, which is one way,
      but not the only one, of having the mapping. */
  predicate HasDirect(w: World, n: NodeId, k: Key): (b: bool)
    requires n < |w.nodes|
    ensures b <==> Lookup(w.nodes[n].registry, k).Some?
    ensures b ==> HasMapping(w, n, k)
  {
    assert Ancestors(w, n)[0] == n;
    HasDirectMapping(w.nodes[n].registry, k)
  }

  /** The parent of `n` in a valid world, which is always an existing
      injector. */
  function ParentOf(w: World, n: NodeId): (p: Option<NodeId>)
    requires Valid(w) && n < |w.nodes|
    ensures p == w.nodes[n].parent
    ensures p.Some? ==> p.value < |w.nodes|
  {
    assert Rooted(w.nodes, n, |w.nodes|);
    match w.nodes[n].parent
    case None => None
    case Some(q) =>
      assert Rooted(w.nodes, q, |w.nodes| - 1);
      Some(q)
  }

  /** `n.hasMapping(k)`: some injector from `n` up to its root binds `k`. */
  function HasMapping(w: World, n: NodeId, k: Key): (b: bool)
    ensures b <==> exists c :: c in Ancestors(w, n) && Holds(w.nodes, c, k)
  {
    FindOwnerSpec(w.nodes, n, k, |w.nodes|);
    Owner(w, n, k).Some?
  }

  // ---------------------------------------------------------------------
  // Resolution

  /** A singleton or type rule carries the same factory as before, and a
      singleton keeps the instance it had. */
  predicate RuleKept(r0: Rule, r1: Rule) {
    match r0
    case SingletonRule(f, c) => r1.SingletonRule? && r1.factory == f && (c.Some? ==> r1.cached == c)
    case _ => r1 == r0
  }

  /** Every singleton whose instance was made between `w0` and `w1` caches
      an object added in that time, built by the singleton's own factory. */
  predicate FreshCaches(w0: World, w1: World) {
    forall n, k ::
      (&& 0 <= n < |w0.nodes| && n < |w1.nodes| && k in w0.nodes[n].registry && k in w1.nodes[n].registry
       && w0.nodes[n].registry[k].SingletonRule? && w0.nodes[n].registry[k].cached.None?
       && w1.nodes[n].registry[k].SingletonRule? && w1.nodes[n].registry[k].cached.Some?) ==>
        var c := w1.nodes[n].registry[k].cached.value;
        |w0.heap| <= c < |w1.heap| && w1.heap[c] == NewInstance(w0.nodes[n].registry[k].factory)
  }

  /** `w1` is `w0` after resolutions: the same injectors binding the same
      keys with the same rules, singletons that were created kept and new
      ones built by their factories, objects only added, and no calls made. */
  predicate Evolves(w0: World, w1: World) {
    && SameShape(w0.nodes, w1.nodes)
    && (forall n, k :: 0 <= n < |w0.nodes| && k in w0.nodes[n].registry ==>
          RuleKept(w0.nodes[n].registry[k], w1.nodes[n].registry[k]))
    && FreshCaches(w0, w1)
    && w0.heap <= w1.heap
    && w1.log == w0.log
  }

  /** Every rule of `w0` but the one `o` holds for `k` is the same in `w1`. */
  predicate OnlyRuleTouched(w0: World, w1: World, o: Option<NodeId>, k: Key) {
    forall m, k' :: 0 <= m < |w0.nodes| && m < |w1.nodes| && k' in w0.nodes[m].registry && (o != Some(m) || k' != k) ==>
      k' in w1.nodes[m].registry && w1.nodes[m].registry[k'] == w0.nodes[m].registry[k']
  }

  /** The factory of the singleton rule that answers `k` at `n`, when that
      singleton has not made its instance yet. */
  function UnmadeSingleton(w: World, n: NodeId, k: Key): Option<Factory> {
    match Owner(w, n, k)
    case None => None
    case Some(o) =>
      if o < |w.nodes| && k in w.nodes[o].registry && w.nodes[o].registry[k].SingletonRule?
         && w.nodes[o].registry[k].cached.None?
      then Some(w.nodes[o].registry[k].factory)
      else None
  }

  /** Value `v` is what `rule` hands out, the world having gone from `w0`
      to `w1`: the bound value itself; a new object built by the factory; or
      the singleton's one instance. */
  predicate RuleYields(w0: World, w1: World, rule: Rule, v: Value) {
    match rule
    case ValueRule(x) => v == x
    case TypeRule(f) => v.Obj? && |w0.heap| <= v.ref < |w1.heap| && w1.heap[v.ref] == NewInstance(f)
    case SingletonRule(f, c) => v.Obj? && c == Some(v.ref) && v.ref < |w1.heap|
  }

  /** Value `v` is the answer, in `w1`, to a request for `k` made at `n`:
      it is what the rule of the nearest injector binding `k` hands out. */
  predicate Resolves(w0: World, w1: World, n: NodeId, k: Key, v: Value) {
    match Owner(w1, n, k)
    case None => false
    case Some(o) => Holds(w1.nodes, o, k) && RuleYields(w0, w1, w1.nodes[o].registry[k], v)
  }

  /** Apply the rule `o` holds for `k`. */
  function Instantiate(w: World, o: NodeId, k: Key): Resolved
    requires o < |w.nodes| && k in w.nodes[o].registry
  {
    match w.nodes[o].registry[k]
    case ValueRule(v) => Resolved(v, w)
    case TypeRule(f) =>
      Resolved(Obj(|w.heap|), w.(heap := w.heap + [NewInstance(f)]))
    case SingletonRule(f, Some(c)) => Resolved(Obj(c), w)
    case SingletonRule(f, None) =>
      var reg := w.nodes[o].registry[k := SingletonRule(f, Some(|w.heap|))];
      Resolved(Obj(|w.heap|), World(w.nodes[o := Node(reg, w.nodes[o].parent)], w.heap + [NewInstance(f)], w.log))
  }

  /** The first resolution of a singleton: the new instance is cached in
      the rule, and nothing else about the bindings changes. */
  lemma FirstSingletonSound(w: World, n: NodeId, o: NodeId, k: Key, f: Factory)
    requires Valid(w) && n < |w.nodes| && Owner(w, n, k) == Some(o)
    requires o < |w.nodes| && k in w.nodes[o].registry && w.nodes[o].registry[k] == SingletonRule(f, None)
    ensures var r := Instantiate(w, o, k);
      && Valid(r.world) && Evolves(w, r.world) && Resolves(w, r.world, n, k, r.value)
      && OnlyRuleTouched(w, r.world, Some(o), k)
  {
    var r := Instantiate(w, o, k);
    var w1 := r.world;
    var reg := w.nodes[o].registry[k := SingletonRule(f, Some(|w.heap|))];
    assert w1.nodes == w.nodes[o := Node(reg, w.nodes[o].parent)];
    assert reg.Keys == w.nodes[o].registry.Keys;
    assert SameShape(w.nodes, w1.nodes);
    HoldersDecideOwner(w.nodes, w1.nodes, n, k, |w.nodes|);
    ParentsDecideAcyclic(w.nodes, w1.nodes);
    assert w.heap <= w1.heap;
    assert w1.heap[|w.heap|] == NewInstance(f);
  }

  /** Applying a rule keeps the invariant, changes nothing but the heap and
      singleton caches, and yields what the rule promises. */
  lemma InstantiateSound(w: World, n: NodeId, o: NodeId, k: Key)
    requires Valid(w) && n < |w.nodes| && Owner(w, n, k) == Some(o)
    ensures o < |w.nodes| && k in w.nodes[o].registry
    ensures var r := Instantiate(w, o, k);
      && Valid(r.world) && Evolves(w, r.world) && Resolves(w, r.world, n, k, r.value)
      && OnlyRuleTouched(w, r.world, Some(o), k) && |r.world.heap| <= |w.heap| + 1
    ensures UnmadeSingleton(w, n, k).Some? ==>
      var r := Instantiate(w, o, k);
      r.value == Obj(|w.heap|) && r.world.heap == w.heap + [NewInstance(UnmadeSingleton(w, n, k).value)]
  {
    FindOwnerSpec(w.nodes, n, k, |w.nodes|);
    assert FirstHolder(w.nodes, Ancestors(w, n), k, o);
    match w.nodes[o].registry[k]
    case ValueRule(_) =>
    case SingletonRule(f, Some(_)) =>
    case TypeRule(f) =>
      var w1 := Instantiate(w, o, k).world;
      assert w1.nodes == w.nodes && w.heap <= w1.heap;
    case SingletonRule(f, None) =>
      FirstSingletonSound(w, n, o, k, f);
  }

  /** `n.getInstance(k)`: resolve `k` at `n`, walking up to the root; throws
      when no injector on the way binds `k`. */
  function GetInstance(w: World, n: NodeId, k: Key): (r: Result<Resolved, Error>)
    requires Valid(w) && n < |w.nodes|
    ensures r.Failure? <==> !HasMapping(w, n, k)
    ensures r.Failure? ==> r.error == NotFound(k)
    ensures r.Success? ==> Valid(r.value.world) && Evolves(w, r.value.world)
    ensures r.Success? ==> Resolves(w, r.value.world, n, k, r.value.value)
    ensures r.Success? ==> OnlyRuleTouched(w, r.value.world, Owner(w, n, k), k) && |r.value.world.heap| <= |w.heap| + 1
    ensures r.Success? && UnmadeSingleton(w, n, k).Some? ==>
      r.value.value == Obj(|w.heap|) && r.value.world.heap == w.heap + [NewInstance(UnmadeSingleton(w, n, k).value)]
  {
    match Owner(w, n, k)
    case None => Failure(NotFound(k))
    case Some(o) =>
      InstantiateSound(w, n, o, k);
      Success(Instantiate(w, o, k))
  }

  // ---------------------------------------------------------------------
  // Objects as callers see them

  /** An object and the world holding it. */
  datatype Allocated = Allocated(world: World, ref: Ref)

  /** A caller creating a plain object, such as an object literal. */
  function Allocate(w: World, o: Object): (r: Allocated)
    requires Valid(w)
    ensures Valid(r.world) && r.ref == |w.heap| && r.world.heap == w.heap + [o]
    ensures r.world.nodes == w.nodes && r.world.log == w.log
  {
    Allocated(w.(heap := w.heap + [o]), |w.heap|)
  }

  /** A caller reading `x.name`. */
  function Read(w: World, x: Ref, name: string): Option<Value>
    requires x < |w.heap|
  {
    ReadField(w.heap[x].fields, name)
  }

  /** A caller assigning `x.name = v`. */
  function Assign(w: World, x: Ref, name: string, v: Value): (w': World)
    requires x < |w.heap|
    ensures |w'.heap| == |w.heap| && w'.nodes == w.nodes && w'.log == w.log && (Valid(w) ==> Valid(w'))
    ensures w'.heap[x].postConstructs == w.heap[x].postConstructs
    ensures Read(w', x, name) == Some(v)
    ensures forall y :: 0 <= y < |w.heap| && y != x ==> w'.heap[y] == w.heap[y]
  {
    ReadAfterWrite(w.heap[x].fields, name, name, v);
    w.(heap := w.heap[x := w.heap[x].(fields := WriteField(w.heap[x].fields, name, v))])
  }

  // ---------------------------------------------------------------------
  // Injection into an object

  /** The key a property asks for, when its value is a marker string. */
  function FieldKey(f: Field): Option<Key> {
    if f.value.Str? then MarkerKey(f.name, f.value.s) else None
  }

  /** A property carries a marker that `n` cannot resolve. */
  predicate Unresolvable(w: World, n: NodeId, f: Field) {
    FieldKey(f).Some? && !HasMapping(w, n, FieldKey(f).value)
  }

  /** Property `after` is property `before` once injected: same name; a
      marker replaced by the instance its key resolves to, anything else
      left as it was. */
  predicate InjectedField(w0: World, w1: World, n: NodeId, before: Field, after: Field) {
    && after.name == before.name
    && (FieldKey(before).None? ==> after == before)
    && (FieldKey(before).Some? ==> Resolves(w0, w1, n, FieldKey(before).value, after.value))
  }

  /** Every property of `before` is injected into the matching one of `after`. */
  predicate AllInjected(w0: World, w1: World, n: NodeId, before: seq<Field>, after: seq<Field>) {
    && |after| == |before|
    && forall i :: 0 <= i < |before| ==> InjectedField(w0, w1, n, before[i], after[i])
  }

  /** `e` reports the first property of `fs` whose marker `n` cannot resolve. */
  ghost predicate FirstUnresolvable(w: World, n: NodeId, fs: seq<Field>, e: Error) {
    exists i :: 0 <= i < |fs| && Unresolvable(w, n, fs[i]) && e == NotFound(FieldKey(fs[i]).value) &&
      forall j :: 0 <= j < i ==> !Unresolvable(w, n, fs[j])
  }

  /** The properties after injection, and the world after the resolutions. */
  datatype Injected = Injected(fields: seq<Field>, world: World)

  /** Resolve every marker among `fs`, front to back. */
  function InjectFields(w: World, n: NodeId, fs: seq<Field>): (r: Result<Injected, Error>)
    requires Valid(w) && n < |w.nodes|
    ensures r.Success? ==> Valid(r.value.world) && Evolves(w, r.value.world)
    ensures r.Success? ==> |r.value.fields| == |fs|
    decreases |fs|
  {
    if fs == [] then Success(Injected([], w))
    else
      var head := fs[0];
      match FieldKey(head)
      case None =>
        var rest :- InjectFields(w, n, fs[1..]);
        Success(Injected([head] + rest.fields, rest.world))
      case Some(k) =>
        var got :- GetInstance(w, n, k);
        var rest :- InjectFields(got.world, n, fs[1..]);
        EvolvesTransitive(w, got.world, rest.world);
        Success(Injected([Field(head.name, got.value)] + rest.fields, rest.world))
  }

  /** The calls `postConstructs` asks for, in list order. */
  function Calls(t: Ref, names: seq<string>, seen: seq<Field>): (cs: seq<Call>)
    ensures |cs| == |names|
    ensures forall i :: 0 <= i < |names| ==> cs[i] == Call(t, names[i], seen)
  {
    seq(|names|, i requires 0 <= i < |names| => Call(t, names[i], seen))
  }

  // ---------------------------------------------------------------------
  // What one injection may touch

  /** The keys the markers among `fs` ask for. */
  function AskedKeys(fs: seq<Field>): set<Key> {
    if fs == [] then {}
    else
      var head := match FieldKey(fs[0]) case Some(k) => {k} case None => {};
      head + AskedKeys(fs[1..])
  }

  /** The number of markers among `fs`. */
  function MarkerCount(fs: seq<Field>): nat {
    if fs == [] then 0
    else (if FieldKey(fs[0]).Some? then 1 else 0) + MarkerCount(fs[1..])
  }

  /** Every rule of `w0` that no request made at `n` for one of the keys
      `asked` reaches is the same in `w1`. */
  predicate OnlyAskedTouched(w0: World, w1: World, n: NodeId, asked: set<Key>) {
    forall m, k ::
      (&& 0 <= m < |w0.nodes| && m < |w1.nodes| && k in w0.nodes[m].registry
       && !(Owner(w0, n, k) == Some(m) && k in asked)) ==>
        k in w1.nodes[m].registry && w1.nodes[m].registry[k] == w0.nodes[m].registry[k]
  }

  /** Every object a value binding hands out exists. A caller can only bind
      an object it holds, so every world a program reaches has this
      property. */
  predicate ValuesLive(w: World) {
    forall m, k ::
      (&& 0 <= m < |w.nodes| && k in w.nodes[m].registry && w.nodes[m].registry[k].ValueRule?
       && w.nodes[m].registry[k].value.Obj?) ==> w.nodes[m].registry[k].value.ref < |w.heap|
  }

  /** The rule that answers a request for `k` made at `n`, if any. */
  function AnswerRule(w: World, n: NodeId, k: Key): Option<Rule> {
    match Owner(w, n, k)
    case None => None
    case Some(o) => if o < |w.nodes| then Lookup(w.nodes[o].registry, k) else None
  }

  /** Property `f` is a marker that a type binding answers at `n`. */
  predicate TypeAnswered(w: World, n: NodeId, f: Field) {
    && FieldKey(f).Some?
    && AnswerRule(w, n, FieldKey(f).value).Some?
    && AnswerRule(w, n, FieldKey(f).value).value.TypeRule?
  }

  /** The object a type binding created for one marker of `before` is given
      to no other marker. */
  predicate TypeInstancesUnshared(w: World, n: NodeId, before: seq<Field>, after: seq<Field>) {
    && |after| == |before|
    && forall i, j ::
         (&& 0 <= i < |before| && 0 <= j < |before| && i != j
          && TypeAnswered(w, n, before[i]) && FieldKey(before[j]).Some?) ==>
           after[j].value != after[i].value
  }

  /** Rule `rule` hands out object `x` without creating it. */
  predicate RuleRefers(rule: Rule, x: Ref) {
    match rule
    case ValueRule(v) => v == Obj(x)
    case TypeRule(_) => false
    case SingletonRule(_, c) => c == Some(x)
  }

  /** No rule of `w` hands out object `x` without creating it. */
  predicate NoRuleRefers(w: World, x: Ref) {
    forall m, k :: 0 <= m < |w.nodes| && k in w.nodes[m].registry ==> !RuleRefers(w.nodes[m].registry[k], x)
  }

  /** No marker of `before` received object `x`. */
  predicate MarkersAvoid(before: seq<Field>, after: seq<Field>, x: Ref) {
    forall j :: 0 <= j < |before| && j < |after| && FieldKey(before[j]).Some? ==> after[j].value != Obj(x)
  }

  /** `n.injectInto(t)`: replace every marker property of object `t` by the
      instance its key resolves to, then call each method `postConstructs`
      names, once per entry, in order, each seeing the injected properties.
      Throws, with the first unresolvable
      marker's key, when some marker cannot be resolved. */
  function InjectInto(w: World, n: NodeId, t: Ref): (r: Result<World, Error>)
    requires Valid(w) && n < |w.nodes| && t < |w.heap|
    ensures r.Failure? <==> exists i :: 0 <= i < |w.heap[t].fields| && Unresolvable(w, n, w.heap[t].fields[i])
    ensures r.Failure? ==> FirstUnresolvable(w, n, w.heap[t].fields, r.error)
    ensures r.Success? ==> Valid(r.value) && SameShape(w.nodes, r.value.nodes)
    ensures r.Success? ==> |r.value.heap| >= |w.heap|
    ensures r.Success? ==> forall x :: 0 <= x < |w.heap| && x != t ==> r.value.heap[x] == w.heap[x]
    ensures r.Success? ==> r.value.heap[t].postConstructs == w.heap[t].postConstructs
    ensures r.Success? ==> AllInjected(w, r.value, n, w.heap[t].fields, r.value.heap[t].fields)
    ensures r.Success? ==> forall m, k :: 0 <= m < |w.nodes| && k in w.nodes[m].registry ==>
      RuleKept(w.nodes[m].registry[k], r.value.nodes[m].registry[k])
    ensures r.Success? ==> FreshCaches(w, r.value)
    ensures r.Success? ==> r.value.log == w.log + Calls(t, w.heap[t].postConstructs, r.value.heap[t].fields)
    ensures r.Success? ==> OnlyAskedTouched(w, r.value, n, AskedKeys(w.heap[t].fields))
    ensures r.Success? ==> |r.value.heap| <= |w.heap| + MarkerCount(w.heap[t].fields)
    ensures MarkerCount(w.heap[t].fields) == 0 ==> r.Success? && r.value.nodes == w.nodes && r.value.heap == w.heap
    ensures r.Success? && ValuesLive(w) ==> TypeInstancesUnshared(w, n, w.heap[t].fields, r.value.heap[t].fields)
  {
    var target := w.heap[t];
    InjectFieldsCorrect(w, n, target.fields);
    NoMarkersSucceed(w, n, target.fields);
    var done :- InjectFields(w, n, target.fields);
    var w1 := done.world;
    var w2 := w1.(heap := w1.heap[t := Object(done.fields, target.postConstructs)],
                  log := w1.log + Calls(t, target.postConstructs, done.fields));
    WriteKeepsResolves(w, w1, w2, n, t, target.fields, done.fields);
    WriteBackTouches(w, n, t, w2);
    Success(w2)
  }

  // ---------------------------------------------------------------------
  // Lemmas behind the contracts above

  lemma EvolvesTransitive(w0: World, w1: World, w2: World)
    requires Evolves(w0, w1) && Evolves(w1, w2)
    ensures Evolves(w0, w2)
  {
  }

  /** Resolution does not change which keys an injector can resolve. */
  lemma EvolvesKeepsMapping(w0: World, w1: World, n: NodeId, k: Key)
    requires Evolves(w0, w1)
    ensures HasMapping(w1, n, k) == HasMapping(w0, n, k)
    ensures Owner(w1, n, k) == Owner(w0, n, k)
  {
    HoldersDecideOwner(w0.nodes, w1.nodes, n, k, |w0.nodes|);
  }

  /** An answer stays the answer while the world evolves further, and it is
      still an answer measured from an earlier world. */
  lemma ResolvesStable(w0: World, w1: World, w2: World, w3: World, n: NodeId, k: Key, v: Value)
    requires Resolves(w1, w2, n, k, v) && Evolves(w2, w3) && |w0.heap| <= |w1.heap|
    ensures Resolves(w0, w3, n, k, v)
  {
    EvolvesKeepsMapping(w2, w3, n, k);
    var o := Owner(w2, n, k).value;
    assert w3.heap[..|w2.heap|] == w2.heap;
  }

  /** What `InjectFields` promises: it fails exactly when some marker is
      unresolvable, reporting the first such marker, and otherwise injects
      every property. */
  ghost predicate InjectSpec(w: World, n: NodeId, fs: seq<Field>)
    requires Valid(w) && n < |w.nodes|
  {
    var r := InjectFields(w, n, fs);
    && (r.Failure? <==> exists i :: 0 <= i < |fs| && Unresolvable(w, n, fs[i]))
    && (r.Failure? ==> FirstUnresolvable(w, n, fs, r.error))
    && (r.Success? ==> AllInjected(w, r.value.world, n, fs, r.value.fields))
  }

  /** List reasoning behind the next lemma, for any relation between
      elements: a related pair in front of pairwise related lists gives
      pairwise related lists. */
  lemma PairwiseCons<A, B>(rel: (A, B) -> bool, xs: seq<A>, y: B, ys: seq<B>)
    requires xs != [] && |ys| == |xs| - 1 && rel(xs[0], y)
    requires forall i :: 0 <= i < |ys| ==> rel(xs[1..][i], ys[i])
    ensures forall i :: 0 <= i < |xs| ==> rel(xs[i], ([y] + ys)[i])
  {
    forall i | 0 < i < |xs|
      ensures rel(xs[i], ([y] + ys)[i])
    {
      assert xs[i] == xs[1..][i - 1] && ([y] + ys)[i] == ys[i - 1];
    }
  }

  /** Properties that are all injected, behind one more injected property. */
  lemma AllInjectedCons(w0: World, w1: World, n: NodeId, fs: seq<Field>, head: Field, rest: seq<Field>)
    requires fs != [] && InjectedField(w0, w1, n, fs[0], head) && AllInjected(w0, w1, n, fs[1..], rest)
    ensures AllInjected(w0, w1, n, fs, [head] + rest)
  {
    var rel := (a: Field, b: Field) => InjectedField(w0, w1, n, a, b);
    PairwiseCons(rel, fs, head, rest);
  }

  /** List reasoning behind the next lemma, for any property of elements:
      when the head lacks it, some element has it exactly when some
      element of the tail does. */
  lemma SomeShift<T>(bad0: T -> bool, bad1: T -> bool, xs: seq<T>)
    requires xs != [] && !bad0(xs[0])
    requires forall j :: 0 <= j < |xs[1..]| ==> bad1(xs[1..][j]) == bad0(xs[1..][j])
    ensures (exists i :: 0 <= i < |xs| && bad0(xs[i])) <==> (exists i :: 0 <= i < |xs[1..]| && bad1(xs[1..][i]))
  {
    var tail := xs[1..];
    if i :| 0 <= i < |xs| && bad0(xs[i]) {
      assert i > 0 && xs[i] == tail[i - 1];
    }
    if i :| 0 <= i < |tail| && bad1(tail[i]) {
      assert xs[i + 1] == tail[i];
    }
  }

  /** Behind a resolvable first property, some property is unresolvable
      exactly when one of the rest is, as judged in `w1`, provided `w1`
      judges the rest as `w` does. */
  lemma ExistsUnresolvableShift(w: World, w1: World, n: NodeId, fs: seq<Field>)
    requires fs != [] && !Unresolvable(w, n, fs[0])
    requires forall i :: 0 <= i < |fs[1..]| ==> Unresolvable(w1, n, fs[1..][i]) == Unresolvable(w, n, fs[1..][i])
    ensures (exists i :: 0 <= i < |fs| && Unresolvable(w, n, fs[i])) <==>
            (exists i :: 0 <= i < |fs[1..]| && Unresolvable(w1, n, fs[1..][i]))
  {
    SomeShift((f: Field) => Unresolvable(w, n, f), (f: Field) => Unresolvable(w1, n, f), fs);
  }

  /** The step for a first property that is not a marker. */
  lemma PlainHeadStep(w: World, n: NodeId, fs: seq<Field>)
    requires Valid(w) && n < |w.nodes| && fs != [] && FieldKey(fs[0]).None?
    requires InjectSpec(w, n, fs[1..])
    ensures InjectSpec(w, n, fs)
  {
    var tail := fs[1..];
    var r := InjectFields(w, n, fs);
    var rest := InjectFields(w, n, tail);
    assert r.Failure? == rest.Failure?;
    ExistsUnresolvableShift(w, w, n, fs);
    if r.Failure? {
      assert r.error == rest.error;
      FirstUnresolvableShift(w, w, n, fs, r.error);
    } else {
      assert r.value == Injected([fs[0]] + rest.value.fields, rest.value.world);
      AllInjectedCons(w, r.value.world, n, fs, fs[0], rest.value.fields);
    }
  }

  /** Resolution does not change which markers are unresolvable. */
  lemma UnresolvableKept(w: World, w1: World, n: NodeId, fs: seq<Field>)
    requires Evolves(w, w1)
    ensures forall i :: 0 <= i < |fs| ==> Unresolvable(w1, n, fs[i]) == Unresolvable(w, n, fs[i])
  {
    forall i | 0 <= i < |fs|
      ensures Unresolvable(w1, n, fs[i]) == Unresolvable(w, n, fs[i])
    {
      if FieldKey(fs[i]).Some? {
        EvolvesKeepsMapping(w, w1, n, FieldKey(fs[i]).value);
      }
    }
  }

  /** List reasoning behind the next lemma, for any property of elements:
      nothing before position `i` of the tail, nor the head, has it, so
      nothing before position `i + 1` of the whole has it. */
  lemma NoneBeforeShift<T>(bad0: T -> bool, bad1: T -> bool, xs: seq<T>, i: nat)
    requires xs != [] && !bad0(xs[0]) && i < |xs|
    requires forall j :: 0 <= j < |xs[1..]| ==> bad1(xs[1..][j]) == bad0(xs[1..][j])
    requires forall j :: 0 <= j < i ==> !bad1(xs[1..][j])
    ensures forall j :: 0 <= j < i + 1 ==> !bad0(xs[j])
  {
    forall j | 0 < j < i + 1
      ensures !bad0(xs[j])
    {
      assert xs[j] == xs[1..][j - 1];
    }
  }

  /** Resolvable markers in the rest, up to position `i`, behind a
      resolvable first marker: every marker of the whole up to `i + 1` is
      resolvable. */
  lemma ResolvablePrefixShift(w: World, w1: World, n: NodeId, fs: seq<Field>, i: nat)
    requires fs != [] && !Unresolvable(w, n, fs[0]) && i < |fs|
    requires forall j :: 0 <= j < |fs[1..]| ==> Unresolvable(w1, n, fs[1..][j]) == Unresolvable(w, n, fs[1..][j])
    requires forall j :: 0 <= j < i ==> !Unresolvable(w1, n, fs[1..][j])
    ensures forall j :: 0 <= j < i + 1 ==> !Unresolvable(w, n, fs[j])
  {
    NoneBeforeShift((f: Field) => Unresolvable(w, n, f), (f: Field) => Unresolvable(w1, n, f), fs, i);
  }

  /** A resolvable first marker followed by a first unresolvable one in the
      rest: that one is the first unresolvable marker of all. */
  lemma FirstUnresolvableShift(w: World, w1: World, n: NodeId, fs: seq<Field>, e: Error)
    requires fs != [] && !Unresolvable(w, n, fs[0])
    requires forall i :: 0 <= i < |fs[1..]| ==> Unresolvable(w1, n, fs[1..][i]) == Unresolvable(w, n, fs[1..][i])
    requires FirstUnresolvable(w1, n, fs[1..], e)
    ensures FirstUnresolvable(w, n, fs, e)
  {
    var tail := fs[1..];
    var i :| 0 <= i < |tail| && Unresolvable(w1, n, tail[i]) && e == NotFound(FieldKey(tail[i]).value) &&
      forall j :: 0 <= j < i ==> !Unresolvable(w1, n, tail[j]);
    assert fs[i + 1] == tail[i];
    ResolvablePrefixShift(w, w1, n, fs, i);
  }

  /** A property injected relative to a later world is also injected
      relative to an earlier one. */
  lemma InjectedFieldEarlier(w: World, w1: World, w2: World, n: NodeId, before: Field, after: Field)
    requires InjectedField(w1, w2, n, before, after) && |w.heap| <= |w1.heap|
    ensures InjectedField(w, w2, n, before, after)
  {
    var key := FieldKey(before);
    if key.Some? {
      ResolvesStable(w, w1, w2, w2, n, key.value, after.value);
    }
  }

  /** The injected first marker, followed by the injected rest. */
  lemma InjectedShift(w: World, w1: World, w2: World, n: NodeId, fs: seq<Field>, k: Key, v: Value, rest: seq<Field>)
    requires fs != [] && FieldKey(fs[0]) == Some(k)
    requires Resolves(w, w1, n, k, v) && Evolves(w1, w2) && w.heap <= w1.heap
    requires AllInjected(w1, w2, n, fs[1..], rest)
    ensures AllInjected(w, w2, n, fs, [Field(fs[0].name, v)] + rest)
  {
    var tail := fs[1..];
    ResolvesStable(w, w, w1, w2, n, k, v);
    assert InjectedField(w, w2, n, fs[0], Field(fs[0].name, v));
    forall i | 0 <= i < |tail|
      ensures InjectedField(w, w2, n, tail[i], rest[i])
    {
      InjectedFieldEarlier(w, w1, w2, n, tail[i], rest[i]);
    }
    AllInjectedCons(w, w2, n, fs, Field(fs[0].name, v), rest);
  }

  /** The step for a first property that is a marker `n` can resolve. */
  lemma MarkerHeadStep(w: World, n: NodeId, fs: seq<Field>, k: Key)
    requires Valid(w) && n < |w.nodes| && fs != [] && FieldKey(fs[0]) == Some(k)
    requires GetInstance(w, n, k).Success?
    requires InjectSpec(GetInstance(w, n, k).value.world, n, fs[1..])
    ensures InjectSpec(w, n, fs)
  {
    var tail := fs[1..];
    var got := GetInstance(w, n, k).value;
    var w1 := got.world;
    var r := InjectFields(w, n, fs);
    var rest := InjectFields(w1, n, tail);
    assert r.Failure? == rest.Failure?;
    UnresolvableKept(w, w1, n, tail);
    assert !Unresolvable(w, n, fs[0]);
    ExistsUnresolvableShift(w, w1, n, fs);
    if r.Failure? {
      assert r.error == rest.error;
      FirstUnresolvableShift(w, w1, n, fs, r.error);
    } else {
      assert r.value == Injected([Field(fs[0].name, got.value)] + rest.value.fields, rest.value.world);
      InjectedShift(w, w1, rest.value.world, n, fs, k, got.value, rest.value.fields);
    }
  }

  /** `InjectFields` keeps its promise, by induction on the properties. */
  lemma {:induction false} InjectFieldsCorrect(w: World, n: NodeId, fs: seq<Field>)
    requires Valid(w) && n < |w.nodes|
    ensures InjectSpec(w, n, fs)
    decreases |fs|
  {
    if fs != [] {
      match FieldKey(fs[0])
      case None =>
        InjectFieldsCorrect(w, n, fs[1..]);
        PlainHeadStep(w, n, fs);
      case Some(k) =>
        var got := GetInstance(w, n, k);
        if got.Success? {
          InjectFieldsCorrect(got.value.world, n, fs[1..]);
          MarkerHeadStep(w, n, fs, k);
        } else {
          assert Unresolvable(w, n, fs[0]);
          assert FirstUnresolvable(w, n, fs, NotFound(k));
        }
    }
  }

  /** Writing the injected properties back onto `t`, and logging the calls,
      keeps every answer: no answer is object `t` itself. */
  lemma WriteKeepsResolves(w: World, w1: World, w2: World, n: NodeId, t: Ref, before: seq<Field>, after: seq<Field>)
    requires Valid(w1) && Evolves(w, w1) && t < |w.heap|
    requires w2.nodes == w1.nodes && |w2.heap| == |w1.heap|
    requires forall x :: 0 <= x < |w1.heap| && x != t ==> w2.heap[x] == w1.heap[x]
    requires |before| == |after|
    requires forall i :: 0 <= i < |before| ==> InjectedField(w, w1, n, before[i], after[i])
    ensures Valid(w2)
    ensures forall i :: 0 <= i < |before| ==> InjectedField(w, w2, n, before[i], after[i])
  {
    forall i | 0 <= i < |before|
      ensures InjectedField(w, w2, n, before[i], after[i])
    {
      var key := FieldKey(before[i]);
      if key.Some? {
        var o := Owner(w1, n, key.value).value;
        assert Owner(w2, n, key.value) == Some(o);
      }
    }
  }

  // ---------------------------------------------------------------------
  // What one injection touches: the lemmas

  /** The keys asked for are exactly those some marker carries. */
  lemma {:induction false} AskedKeysSpec(fs: seq<Field>, k: Key)
    ensures k in AskedKeys(fs) <==> exists i :: 0 <= i < |fs| && FieldKey(fs[i]) == Some(k)
    decreases |fs|
  {
    if fs != [] {
      AskedKeysSpec(fs[1..], k);
      if i :| 0 <= i < |fs[1..]| && FieldKey(fs[1..][i]) == Some(k) {
        assert fs[i + 1] == fs[1..][i];
      }
      if i :| 0 <= i < |fs| && FieldKey(fs[i]) == Some(k) {
        if i > 0 {
          assert fs[1..][i - 1] == fs[i];
        }
      }
    }
  }

  /** There are no more markers than properties, and none exactly when no
      property carries a marker. */
  lemma {:induction false} MarkerCountSpec(fs: seq<Field>)
    ensures MarkerCount(fs) <= |fs|
    ensures MarkerCount(fs) == 0 <==> forall i :: 0 <= i < |fs| ==> FieldKey(fs[i]).None?
    decreases |fs|
  {
    if fs != [] {
      MarkerCountSpec(fs[1..]);
      assert forall i :: 0 < i < |fs| ==> fs[i] == fs[1..][i - 1];
    }
  }

  /** What `InjectFields` promises about what it touches: only the rules
      its markers reach, and at most one new object per marker. */
  ghost predicate FrameSpec(w: World, n: NodeId, fs: seq<Field>)
    requires Valid(w) && n < |w.nodes|
  {
    var r := InjectFields(w, n, fs);
    r.Success? ==>
      && OnlyAskedTouched(w, r.value.world, n, AskedKeys(fs))
      && |r.value.world.heap| <= |w.heap| + MarkerCount(fs)
  }

  /** `InjectFields` keeps its promise about what it touches, by induction
      on the properties. */
  lemma {:induction false} InjectFieldsFrame(w: World, n: NodeId, fs: seq<Field>)
    requires Valid(w) && n < |w.nodes|
    ensures FrameSpec(w, n, fs)
    decreases |fs|
  {
    if fs != [] {
      match FieldKey(fs[0])
      case None =>
        InjectFieldsFrame(w, n, fs[1..]);
        FramePlainStep(w, n, fs);
      case Some(k0) =>
        var got := GetInstance(w, n, k0);
        if got.Success? {
          InjectFieldsFrame(got.value.world, n, fs[1..]);
          FrameMarkerStep(w, n, fs, k0);
        }
    }
  }

  /** The step for a first property that is not a marker. */
  lemma FramePlainStep(w: World, n: NodeId, fs: seq<Field>)
    requires Valid(w) && n < |w.nodes| && fs != [] && FieldKey(fs[0]).None?
    requires FrameSpec(w, n, fs[1..])
    ensures FrameSpec(w, n, fs)
  {
    assert AskedKeys(fs) == AskedKeys(fs[1..]) && MarkerCount(fs) == MarkerCount(fs[1..]);
    var r := InjectFields(w, n, fs);
    if r.Success? {
      assert r.value.world == InjectFields(w, n, fs[1..]).value.world;
    }
  }

  /** The step for a first property that is a marker `n` can resolve. */
  lemma FrameMarkerStep(w: World, n: NodeId, fs: seq<Field>, k0: Key)
    requires Valid(w) && n < |w.nodes| && fs != [] && FieldKey(fs[0]) == Some(k0)
    requires GetInstance(w, n, k0).Success?
    requires FrameSpec(GetInstance(w, n, k0).value.world, n, fs[1..])
    ensures FrameSpec(w, n, fs)
  {
    assert AskedKeys(fs) == {k0} + AskedKeys(fs[1..]) && MarkerCount(fs) == 1 + MarkerCount(fs[1..]);
    var w1 := GetInstance(w, n, k0).value.world;
    var r := InjectFields(w, n, fs);
    if r.Success? {
      var w2 := InjectFields(w1, n, fs[1..]).value.world;
      assert r.value.world == w2;
      FrameCompose(w, w1, w2, n, k0, AskedKeys(fs[1..]));
    }
  }

  /** Touching only the rule for `k0` that a request at `n` reaches, and then
      only rules requests for `rest` reach, touches only rules requests for
      `{k0} + rest` reach. */
  lemma FrameCompose(w: World, w1: World, w2: World, n: NodeId, k0: Key, rest: set<Key>)
    requires Evolves(w, w1) && OnlyRuleTouched(w, w1, Owner(w, n, k0), k0)
    requires OnlyAskedTouched(w1, w2, n, rest)
    ensures OnlyAskedTouched(w, w2, n, {k0} + rest)
  {
    forall m, k | 0 <= m < |w.nodes| && m < |w2.nodes| && k in w.nodes[m].registry
        && !(Owner(w, n, k) == Some(m) && k in {k0} + rest)
      ensures k in w2.nodes[m].registry && w2.nodes[m].registry[k] == w.nodes[m].registry[k]
    {
      EvolvesKeepsMapping(w, w1, n, k);
    }
  }

  /** Properties without markers resolve nothing and change nothing. */
  lemma {:induction false} NoMarkersNoResolution(w: World, n: NodeId, fs: seq<Field>)
    requires Valid(w) && n < |w.nodes| && MarkerCount(fs) == 0
    ensures InjectFields(w, n, fs) == Success(Injected(fs, w))
    decreases |fs|
  {
    if fs != [] {
      assert FieldKey(fs[0]).None?;
      NoMarkersNoResolution(w, n, fs[1..]);
      assert [fs[0]] + fs[1..] == fs;
    }
  }

  /** Resolution keeps every object a value binding hands out existing. */
  lemma EvolvesKeepsValuesLive(w0: World, w1: World)
    requires Evolves(w0, w1) && ValuesLive(w0)
    ensures ValuesLive(w1)
  {
    forall m, k | 0 <= m < |w1.nodes| && k in w1.nodes[m].registry && w1.nodes[m].registry[k].ValueRule?
        && w1.nodes[m].registry[k].value.Obj?
      ensures w1.nodes[m].registry[k].value.ref < |w1.heap|
    {
      assert k in w0.nodes[m].registry;
      assert RuleKept(w0.nodes[m].registry[k], w1.nodes[m].registry[k]);
    }
  }

  /** An answer that is an object is an existing one. */
  lemma AnswerLive(w: World, n: NodeId, k: Key)
    requires Valid(w) && n < |w.nodes| && ValuesLive(w) && GetInstance(w, n, k).Success?
    ensures var got := GetInstance(w, n, k).value;
      got.value.Obj? ==> got.value.ref < |got.world.heap|
  {
    var got := GetInstance(w, n, k).value;
    EvolvesKeepsValuesLive(w, got.world);
  }

  /** No rule hands out an object that does not exist yet. */
  lemma FreshUnreferenced(w: World, x: Ref)
    requires Valid(w) && ValuesLive(w) && x >= |w.heap|
    ensures NoRuleRefers(w, x)
  {
    forall m, k | 0 <= m < |w.nodes| && k in w.nodes[m].registry
      ensures !RuleRefers(w.nodes[m].registry[k], x)
    {
      assert CacheLive(w.nodes[m].registry[k], |w.heap|);
    }
  }

  /** An existing object no rule hands out is not the answer to any
      request, and no rule hands it out afterwards. */
  lemma AnswerAvoids(w: World, n: NodeId, k: Key, x: Ref)
    requires Valid(w) && n < |w.nodes| && x < |w.heap| && NoRuleRefers(w, x)
    requires GetInstance(w, n, k).Success?
    ensures var got := GetInstance(w, n, k).value;
      got.value != Obj(x) && NoRuleRefers(got.world, x)
  {
    var got := GetInstance(w, n, k).value;
    var w1 := got.world;
    var o := Owner(w, n, k).value;
    forall m, k' | 0 <= m < |w1.nodes| && k' in w1.nodes[m].registry
      ensures !RuleRefers(w1.nodes[m].registry[k'], x)
    {
      assert k' in w.nodes[m].registry;
      assert !RuleRefers(w.nodes[m].registry[k'], x);
      assert RuleKept(w.nodes[m].registry[k'], w1.nodes[m].registry[k']);
    }
    EvolvesKeepsMapping(w, w1, n, k);
  }

  /** A marker a type binding answers receives the next new object, and no
      rule hands that object out. */
  lemma TypeAnswerNew(w: World, n: NodeId, k: Key)
    requires Valid(w) && n < |w.nodes| && ValuesLive(w)
    requires AnswerRule(w, n, k).Some? && AnswerRule(w, n, k).value.TypeRule?
    ensures GetInstance(w, n, k).Success?
    ensures var got := GetInstance(w, n, k).value;
      && got.value == Obj(|w.heap|) && |w.heap| < |got.world.heap|
      && NoRuleRefers(got.world, |w.heap|)
  {
    var o := Owner(w, n, k).value;
    var got := GetInstance(w, n, k).value;
    assert got == Instantiate(w, o, k);
    assert got.world.nodes == w.nodes;
    FreshUnreferenced(w, |w.heap|);
  }

  /** Resolution keeps the type binding that answers a marker. */
  lemma TypeAnsweredKept(w0: World, w1: World, n: NodeId, f: Field)
    requires Evolves(w0, w1) && TypeAnswered(w0, n, f)
    ensures TypeAnswered(w1, n, f)
  {
    var k := FieldKey(f).value;
    EvolvesKeepsMapping(w0, w1, n, k);
    var o := Owner(w0, n, k).value;
    assert RuleKept(w0.nodes[o].registry[k], w1.nodes[o].registry[k]);
  }

  /** A marker a type binding answers receives an object made after `w0`. */
  lemma TypeAnsweredFresh(w0: World, w1: World, n: NodeId, f: Field, after: Field)
    requires Evolves(w0, w1) && InjectedField(w0, w1, n, f, after) && TypeAnswered(w0, n, f)
    ensures after.value.Obj? && after.value.ref >= |w0.heap|
  {
    var k := FieldKey(f).value;
    EvolvesKeepsMapping(w0, w1, n, k);
    var o := Owner(w0, n, k).value;
    assert RuleKept(w0.nodes[o].registry[k], w1.nodes[o].registry[k]);
  }

  /** An existing object no rule hands out is given to no marker, by
      induction on the properties. */
  lemma {:induction false} InjectFieldsAvoid(w: World, n: NodeId, fs: seq<Field>, x: Ref)
    requires Valid(w) && n < |w.nodes| && x < |w.heap| && NoRuleRefers(w, x)
    ensures var r := InjectFields(w, n, fs);
      r.Success? ==> MarkersAvoid(fs, r.value.fields, x) && NoRuleRefers(r.value.world, x)
    decreases |fs|
  {
    var r := InjectFields(w, n, fs);
    if fs != [] && r.Success? {
      var tail := fs[1..];
      match FieldKey(fs[0])
      case None =>
        InjectFieldsAvoid(w, n, tail, x);
        var rest := InjectFields(w, n, tail).value;
        assert r.value.fields == [fs[0]] + rest.fields;
        MarkersAvoidCons(fs, r.value.fields, x);
      case Some(k0) =>
        AnswerAvoids(w, n, k0, x);
        var got := GetInstance(w, n, k0).value;
        InjectFieldsAvoid(got.world, n, tail, x);
        var rest := InjectFields(got.world, n, tail).value;
        assert r.value.fields == [Field(fs[0].name, got.value)] + rest.fields;
        MarkersAvoidCons(fs, r.value.fields, x);
    }
  }

  /** The step behind the lemma above: a head that avoids `x` in front of a
      tail that does. */
  lemma MarkersAvoidCons(fs: seq<Field>, after: seq<Field>, x: Ref)
    requires fs != [] && |after| == |fs|
    requires FieldKey(fs[0]).Some? ==> after[0].value != Obj(x)
    requires MarkersAvoid(fs[1..], after[1..], x)
    ensures MarkersAvoid(fs, after, x)
  {
    var rel := (f: Field, a: Field) => FieldKey(f).Some? ==> a.value != Obj(x);
    assert [after[0]] + after[1..] == after;
    PairwiseCons(rel, fs, after[0], after[1..]);
  }

  /** What `InjectFields` promises about the objects type bindings create:
      each goes to its own marker only. */
  ghost predicate UnsharedSpec(w: World, n: NodeId, fs: seq<Field>)
    requires Valid(w) && n < |w.nodes|
  {
    var r := InjectFields(w, n, fs);
    r.Success? ==> TypeInstancesUnshared(w, n, fs, r.value.fields)
  }

  /** `InjectFields` gives the object a type binding creates for one marker
      to no other marker, by induction on the properties. */
  lemma {:induction false} InjectFieldsUnshared(w: World, n: NodeId, fs: seq<Field>)
    requires Valid(w) && n < |w.nodes| && ValuesLive(w)
    ensures UnsharedSpec(w, n, fs)
    decreases |fs|
  {
    if fs != [] {
      match FieldKey(fs[0])
      case None =>
        InjectFieldsUnshared(w, n, fs[1..]);
        UnsharedPlainStep(w, n, fs);
      case Some(k0) =>
        var got := GetInstance(w, n, k0);
        if got.Success? {
          EvolvesKeepsValuesLive(w, got.value.world);
          InjectFieldsUnshared(got.value.world, n, fs[1..]);
          UnsharedMarkerStep(w, n, fs, k0);
        }
    }
  }

  /** The step for a first property that is not a marker. */
  lemma UnsharedPlainStep(w: World, n: NodeId, fs: seq<Field>)
    requires Valid(w) && n < |w.nodes| && fs != [] && FieldKey(fs[0]).None?
    requires UnsharedSpec(w, n, fs[1..])
    ensures UnsharedSpec(w, n, fs)
  {
    var r := InjectFields(w, n, fs);
    if r.Success? {
      var after := r.value.fields;
      assert after == [fs[0]] + InjectFields(w, n, fs[1..]).value.fields;
      assert after[1..] == InjectFields(w, n, fs[1..]).value.fields;
      UnsharedCons(w, w, n, fs, after);
    }
  }

  /** The step for a first property that is a marker `n` can resolve: a new
      object made for it is avoided by the rest, and a new object made for
      one of the rest is newer than its answer. */
  lemma UnsharedMarkerStep(w: World, n: NodeId, fs: seq<Field>, k0: Key)
    requires Valid(w) && n < |w.nodes| && ValuesLive(w) && fs != [] && FieldKey(fs[0]) == Some(k0)
    requires GetInstance(w, n, k0).Success?
    requires UnsharedSpec(GetInstance(w, n, k0).value.world, n, fs[1..])
    ensures UnsharedSpec(w, n, fs)
  {
    var tail := fs[1..];
    var got := GetInstance(w, n, k0).value;
    var w1 := got.world;
    var r := InjectFields(w, n, fs);
    if r.Success? {
      var after := r.value.fields;
      var rest := InjectFields(w1, n, tail).value;
      assert after == [Field(fs[0].name, got.value)] + rest.fields;
      assert after[1..] == rest.fields;
      HeadAvoided(w, n, fs, k0);
      AnswerLive(w, n, k0);
      TypeAnswersNewer(w1, n, tail);
      UnsharedCons(w, w1, n, fs, after);
    }
  }

  /** A new object made for a first marker answered by a type binding goes
      to none of the rest. */
  lemma HeadAvoided(w: World, n: NodeId, fs: seq<Field>, k0: Key)
    requires Valid(w) && n < |w.nodes| && ValuesLive(w) && fs != [] && FieldKey(fs[0]) == Some(k0)
    requires GetInstance(w, n, k0).Success?
    ensures var got := GetInstance(w, n, k0).value;
      var rest := InjectFields(got.world, n, fs[1..]);
      TypeAnswered(w, n, fs[0]) && rest.Success? ==>
        got.value.Obj? && MarkersAvoid(fs[1..], rest.value.fields, got.value.ref)
  {
    if TypeAnswered(w, n, fs[0]) {
      TypeAnswerNew(w, n, k0);
      InjectFieldsAvoid(GetInstance(w, n, k0).value.world, n, fs[1..], |w.heap|);
    }
  }

  /** Every marker answered by a type binding receives an object made after
      `w`. */
  lemma TypeAnswersNewer(w: World, n: NodeId, fs: seq<Field>)
    requires Valid(w) && n < |w.nodes|
    ensures var r := InjectFields(w, n, fs);
      r.Success? ==> forall i :: 0 <= i < |fs| && TypeAnswered(w, n, fs[i]) ==>
        r.value.fields[i].value.Obj? && r.value.fields[i].value.ref >= |w.heap|
  {
    InjectFieldsCorrect(w, n, fs);
    var r := InjectFields(w, n, fs);
    if r.Success? {
      forall i | 0 <= i < |fs| && TypeAnswered(w, n, fs[i])
        ensures r.value.fields[i].value.Obj? && r.value.fields[i].value.ref >= |w.heap|
      {
        TypeAnsweredFresh(w, r.value.world, n, fs[i], r.value.fields[i]);
      }
    }
  }

  /** The step behind the lemma above: the pairs among the tail are the
      tail's business; the pairs with the head are given. */
  lemma UnsharedCons(w: World, w1: World, n: NodeId, fs: seq<Field>, after: seq<Field>)
    requires Evolves(w, w1) && fs != [] && |after| == |fs|
    requires TypeInstancesUnshared(w1, n, fs[1..], after[1..])
    requires TypeAnswered(w, n, fs[0]) ==> after[0].value.Obj? && MarkersAvoid(fs[1..], after[1..], after[0].value.ref)
    requires FieldKey(fs[0]).Some? ==>
      forall i :: 0 <= i < |fs[1..]| && TypeAnswered(w1, n, fs[1..][i]) ==> after[0].value != after[i + 1].value
    ensures TypeInstancesUnshared(w, n, fs, after)
  {
    var tail := fs[1..];
    forall i, j | 0 <= i < |fs| && 0 <= j < |fs| && i != j && TypeAnswered(w, n, fs[i]) && FieldKey(fs[j]).Some?
      ensures after[j].value != after[i].value
    {
      if i == 0 {
        assert fs[j] == tail[j - 1] && after[j] == after[1..][j - 1];
      } else {
        assert fs[i] == tail[i - 1] && after[i] == after[1..][i - 1];
        TypeAnsweredKept(w, w1, n, fs[i]);
        if j > 0 {
          assert fs[j] == tail[j - 1] && after[j] == after[1..][j - 1];
        }
      }
    }
  }

  /** Without markers, `InjectFields` succeeds and changes nothing. */
  lemma NoMarkersSucceed(w: World, n: NodeId, fs: seq<Field>)
    requires Valid(w) && n < |w.nodes|
    ensures MarkerCount(fs) == 0 ==> InjectFields(w, n, fs) == Success(Injected(fs, w))
  {
    if MarkerCount(fs) == 0 {
      NoMarkersNoResolution(w, n, fs);
    }
  }

  /** The world after writing the injected properties of `t` back. */
  ghost predicate WrittenBack(w: World, n: NodeId, t: Ref, w2: World)
    requires Valid(w) && n < |w.nodes| && t < |w.heap|
  {
    var r := InjectFields(w, n, w.heap[t].fields);
    && r.Success?
    && w2.nodes == r.value.world.nodes
    && w2.heap == r.value.world.heap[t := Object(r.value.fields, w.heap[t].postConstructs)]
  }

  /** What the injection into `t` touches, once the injected properties are
      written back: only the rules its markers reach, at most one new object
      per marker, nothing at all without markers, and a new object of a type
      binding for one marker only. */
  lemma WriteBackTouches(w: World, n: NodeId, t: Ref, w2: World)
    requires Valid(w) && n < |w.nodes| && t < |w.heap| && WrittenBack(w, n, t, w2)
    ensures OnlyAskedTouched(w, w2, n, AskedKeys(w.heap[t].fields))
    ensures |w2.heap| <= |w.heap| + MarkerCount(w.heap[t].fields)
    ensures MarkerCount(w.heap[t].fields) == 0 ==> w2.nodes == w.nodes && w2.heap == w.heap
    ensures ValuesLive(w) ==> TypeInstancesUnshared(w, n, w.heap[t].fields, w2.heap[t].fields)
  {
    WriteBackFrame(w, n, t, w2);
    WriteBackNoMarkers(w, n, t, w2);
    WriteBackUnshared(w, n, t, w2);
  }

  /** The part of the lemma above about rules and the number of objects. */
  lemma WriteBackFrame(w: World, n: NodeId, t: Ref, w2: World)
    requires Valid(w) && n < |w.nodes| && t < |w.heap| && WrittenBack(w, n, t, w2)
    ensures OnlyAskedTouched(w, w2, n, AskedKeys(w.heap[t].fields))
    ensures |w2.heap| <= |w.heap| + MarkerCount(w.heap[t].fields)
  {
    InjectFieldsFrame(w, n, w.heap[t].fields);
  }

  /** The part of the lemma above about an object without markers. */
  lemma WriteBackNoMarkers(w: World, n: NodeId, t: Ref, w2: World)
    requires Valid(w) && n < |w.nodes| && t < |w.heap| && WrittenBack(w, n, t, w2)
    ensures MarkerCount(w.heap[t].fields) == 0 ==> w2.nodes == w.nodes && w2.heap == w.heap
  {
    NoMarkersSucceed(w, n, w.heap[t].fields);
  }

  /** The part of the lemma above about new objects of type bindings. */
  lemma WriteBackUnshared(w: World, n: NodeId, t: Ref, w2: World)
    requires Valid(w) && n < |w.nodes| && t < |w.heap| && WrittenBack(w, n, t, w2)
    ensures ValuesLive(w) ==> TypeInstancesUnshared(w, n, w.heap[t].fields, w2.heap[t].fields)
  {
    if ValuesLive(w) {
      InjectFieldsUnshared(w, n, w.heap[t].fields);
    }
  }
}

=== FILE: marker.dfy ===
/** The injection-marker grammar. A property named `p` whose current value is
    one of the strings

        inject                   resolves (p, no name)
        inject:K                 resolves (K, no name)
        inject(name="Q")         resolves (p, Q)
        inject(name="Q"):K       resolves (K, Q)

    is an injection point; every other string is left alone. Q is any text
    without a double quote and K is any non-empty text. */
module Marker {
  import opened Wrappers
  import opened Registry

  /** A parsed marker: the optional qualifier and the optional explicit type. */
  datatype Marker = Marker(qualifier: Option<string>, typeId: Option<string>)

  const Keyword: string := "inject"
  const NameOpen: string := "(name=\""
  const NameClose: string := "\")"

  /** The markers some string spells: the qualifier cannot contain the quote
      that closes it, and an explicit type is never empty. */
  predicate WellFormed(m: Marker) {
    && (m.qualifier.Some? ==> '"' !in m.qualifier.value)
    && (m.typeId.Some? ==> m.typeId.value != [])
  }

  function QualifierText(q: Option<string>): string {
    match q
    case None => ""
    case Some(name) => NameOpen + name + NameClose
  }

  function TypeText(t: Option<string>): string {
    match t
    case None => ""
    case Some(k) => ":" + k
  }

  /** The string that spells marker `m`. */
  function Render(m: Marker): string {
    Keyword + (QualifierText(m.qualifier) + TypeText(m.typeId))
  }

  /** The key a marker on property `prop` asks for: the explicit type if
      there is one, otherwise the property's own name. */
  function KeyOf(prop: string, m: Marker): Key {
    Key(m.typeId.ValueOr(prop), m.qualifier)
  }

  /** `s` without the leading `p`, when `s` starts with `p`. */
  function StripPrefix(p: string, s: string): Option<string>
    decreases |p|
  {
    if p == [] then Some(s)
    else if s == [] || s[0] != p[0] then None
    else StripPrefix(p[1..], s[1..])
  }

  /** Position of the first `c` in `s`. */
  function IndexOf(s: string, c: char): (r: Option<nat>)
    ensures r.Some? ==> r.value < |s|
  {
    if s == [] then None
    else if s[0] == c then Some(0)
    else
      match IndexOf(s[1..], c)
      case None => None
      case Some(i) => Some(i + 1)
  }

  /** The optional `:K` tail of a marker. */
  function ParseTypeText(s: string): Option<Option<string>> {
    if s == [] then Some(None)
    else if s[0] == ':' && |s| > 1 then Some(Some(s[1..]))
    else None
  }

  /** The `Q"):K` part after `inject(name="`, up to the end of the string. */
  function ParseQualified(body: string): Option<Marker> {
    var i :- IndexOf(body, '"');
    var tail :- StripPrefix(NameClose, body[i..]);
    var t :- ParseTypeText(tail);
    Some(Marker(Some(body[..i]), t))
  }

  /** Everything after the leading `inject`. */
  function ParseAfterKeyword(rest: string): Option<Marker> {
    match StripPrefix(NameOpen, rest)
    case Some(body) => ParseQualified(body)
    case None =>
      var t :- ParseTypeText(rest);
      Some(Marker(None, t))
  }

  /** Parse a whole property value as a marker. */
  function Parse(s: string): Option<Marker> {
    var rest :- StripPrefix(Keyword, s);
    ParseAfterKeyword(rest)
  }

  /** The key a property asks to be injected with, if its value is a marker. */
  function MarkerKey(prop: string, value: string): Option<Key> {
    match Parse(value)
    case None => None
    case Some(m) => Some(KeyOf(prop, m))
  }

  // ---------------------------------------------------------------------
  // The scanners

  /** `StripPrefix` removes exactly `p`, and finds it whenever it is there. */
  lemma {:induction false} StripPrefixSpec(p: string, s: string)
    ensures StripPrefix(p, s).Some? ==> s == p + StripPrefix(p, s).value
    ensures StripPrefix(p, s).None? ==> !(p <= s)
    decreases |p|
  {
    if p != [] && s != [] && s[0] == p[0] {
      StripPrefixSpec(p[1..], s[1..]);
      if StripPrefix(p, s).Some? {
        assert s == [s[0]] + s[1..];
        assert p == [p[0]] + p[1..];
      }
    }
  }

  /** A prefix is stripped off a string built from it. */
  lemma StripPrefixOf(p: string, rest: string)
    ensures StripPrefix(p, p + rest) == Some(rest)
  {
    StripPrefixSpec(p, p + rest);
    assert p <= p + rest;
    var v := StripPrefix(p, p + rest).value;
    assert v == (p + v)[|p|..];
    assert rest == (p + rest)[|p|..];
  }

  /** `IndexOf` finds the first occurrence, and none when there is none. */
  lemma {:induction false} IndexOfSpec(s: string, c: char)
    ensures IndexOf(s, c).None? ==> c !in s
    ensures IndexOf(s, c).Some? ==> IndexOf(s, c).value < |s| && s[IndexOf(s, c).value] == c
    ensures IndexOf(s, c).Some? ==> c !in s[..IndexOf(s, c).value]
    decreases |s|
  {
    if s != [] && s[0] != c {
      IndexOfSpec(s[1..], c);
      if IndexOf(s, c).Some? {
        var i := IndexOf(s[1..], c).value;
        assert s[..i + 1] == [s[0]] + s[1..][..i];
      } else {
        assert s == [s[0]] + s[1..];
      }
    }
  }

  // ---------------------------------------------------------------------
  // Soundness: the parser accepts only what it can render back

  lemma ParseTypeTextSound(s: string)
    ensures ParseTypeText(s).Some? ==> TypeText(ParseTypeText(s).value) == s
    ensures ParseTypeText(s).Some? && ParseTypeText(s).value.Some? ==> ParseTypeText(s).value.value != []
  {
    if s != [] && s[0] == ':' && |s| > 1 {
      assert s == ":" + s[1..];
    }
  }

  /** Reassembling a body split after its qualifier. */
  lemma QualifiedSplit(body: string, i: nat, tail: string)
    requires i <= |body| && body[i..] == NameClose + tail
    ensures body[..i] + NameClose + tail == body
  {
    assert body == body[..i] + body[i..];
  }

  lemma ParseQualifiedSound(body: string)
    ensures ParseQualified(body).Some? ==>
      var m := ParseQualified(body).value;
      && WellFormed(m) && m.qualifier.Some?
      && m.qualifier.value + NameClose + TypeText(m.typeId) == body
  {
    var r := ParseQualified(body);
    if r.Some? {
      IndexOfSpec(body, '"');
      var i := IndexOf(body, '"').value;
      StripPrefixSpec(NameClose, body[i..]);
      var tail := StripPrefix(NameClose, body[i..]).value;
      ParseTypeTextSound(tail);
      QualifiedSplit(body, i, tail);
    }
  }

  lemma ParseAfterKeywordSound(rest: string)
    ensures ParseAfterKeyword(rest).Some? ==>
      var m := ParseAfterKeyword(rest).value;
      WellFormed(m) && QualifierText(m.qualifier) + TypeText(m.typeId) == rest
  {
    StripPrefixSpec(NameOpen, rest);
    match StripPrefix(NameOpen, rest)
    case Some(body) =>
      QualifiedAfterKeywordSound(rest, body);
    case None =>
      ParseTypeTextSound(rest);
  }

  /** Concatenation regrouped. */
  lemma Regroup(a: string, b: string, c: string, d: string)
    ensures a + (b + c + d) == a + b + c + d
  {
  }

  lemma QualifiedAfterKeywordSound(rest: string, body: string)
    requires rest == NameOpen + body && StripPrefix(NameOpen, rest) == Some(body)
    ensures ParseAfterKeyword(rest) == ParseQualified(body)
    ensures ParseQualified(body).Some? ==>
      var m := ParseQualified(body).value;
      WellFormed(m) && QualifierText(m.qualifier) + TypeText(m.typeId) == rest
  {
    ParseQualifiedSound(body);
    if ParseQualified(body).Some? {
      var m := ParseQualified(body).value;
      Regroup(NameOpen, m.qualifier.value, NameClose, TypeText(m.typeId));
    }
  }

  /** Every string read as a marker is spelled by a well-formed marker. */
  lemma ParseSound(s: string)
    ensures Parse(s).Some? ==> WellFormed(Parse(s).value) && Render(Parse(s).value) == s
  {
    StripPrefixSpec(Keyword, s);
    if Parse(s).Some? {
      var rest := StripPrefix(Keyword, s).value;
      ParseAfterKeywordSound(rest);
    }
  }

  // ---------------------------------------------------------------------
  // Completeness: every well-formed marker is read back

  lemma ParseTypeTextOf(t: Option<string>)
    requires t.Some? ==> t.value != []
    ensures ParseTypeText(TypeText(t)) == Some(t)
  {
    if t.Some? {
      assert (":" + t.value)[1..] == t.value;
    }
  }

  lemma ParseQualifiedOf(q: string, t: Option<string>)
    requires WellFormed(Marker(Some(q), t))
    ensures ParseQualified(q + NameClose + TypeText(t)) == Some(Marker(Some(q), t))
  {
    var body := q + NameClose + TypeText(t);
    assert body == q + (NameClose + TypeText(t));
    assert body[|q|] == '"';
    assert body[..|q|] == q;
    IndexOfSpec(body, '"');
    assert IndexOf(body, '"') == Some(|q|);
    assert body[|q|..] == NameClose + TypeText(t);
    StripPrefixOf(NameClose, TypeText(t));
    ParseTypeTextOf(t);
  }

  /** A type tail never starts with the opening of a qualifier. */
  lemma TypeTextNotQualified(t: Option<string>)
    ensures StripPrefix(NameOpen, TypeText(t)).None?
  {
    StripPrefixSpec(NameOpen, TypeText(t));
  }

  lemma ParseAfterKeywordOf(m: Marker)
    requires WellFormed(m)
    ensures ParseAfterKeyword(QualifierText(m.qualifier) + TypeText(m.typeId)) == Some(m)
  {
    match m.qualifier
    case None =>
      assert QualifierText(m.qualifier) + TypeText(m.typeId) == TypeText(m.typeId);
      TypeTextNotQualified(m.typeId);
      ParseTypeTextOf(m.typeId);
    case Some(q) =>
      var body := q + NameClose + TypeText(m.typeId);
      assert QualifierText(m.qualifier) + TypeText(m.typeId) == NameOpen + body;
      StripPrefixOf(NameOpen, body);
      ParseQualifiedOf(q, m.typeId);
  }

  /** Every well-formed marker is read back from the string that spells it. */
  lemma {:induction false} ParseRender(m: Marker)
    requires WellFormed(m)
    ensures Parse(Render(m)) == Some(m)
  {
    StripPrefixOf(Keyword, QualifierText(m.qualifier) + TypeText(m.typeId));
    ParseAfterKeywordOf(m);
  }

  /** A string is a marker exactly when it spells a well-formed marker, and
      the key it asks for is the one that marker names. */
  lemma MarkerKeyExact(prop: string, value: string, k: Key)
    ensures MarkerKey(prop, value) == Some(k) <==>
            exists m :: WellFormed(m) && Render(m) == value && KeyOf(prop, m) == k
  {
    ParseSound(value);
    if m :| WellFormed(m) && Render(m) == value && KeyOf(prop, m) == k {
      ParseRender(m);
    }
  }

  /** `inject` on property `p` asks for `(p, no name)`. */
  lemma BareMarker(p: string)
    ensures MarkerKey(p, "inject") == Some(Key(p, None))
  {
    ParseRender(Marker(None, None));
    assert Render(Marker(None, None)) == "inject";
  }

  /** `inject:K` asks for `(K, no name)`, whatever the property is called. */
  lemma TypedMarker(p: string, k: string)
    requires k != []
    ensures MarkerKey(p, "inject:" + k) == Some(Key(k, None))
  {
    ParseRender(Marker(None, Some(k)));
    assert Render(Marker(None, Some(k))) == "inject:" + k;
  }

  /** How the named forms are spelled. */
  lemma NamedTexts(q: string, k: string)
    ensures Render(Marker(Some(q), None)) == "inject(name=\"" + q + "\")"
    ensures Render(Marker(Some(q), Some(k))) == "inject(name=\"" + q + "\"):" + k
  {
    assert "inject(name=\"" == Keyword + NameOpen;
    assert "\"):" == NameClose + ":";
    assert NameOpen + q + NameClose + "" == NameOpen + q + NameClose;
  }

  /** `inject(name="Q")` on property `p` asks for `(p, Q)`. */
  lemma NamedMarker(p: string, q: string)
    requires '"' !in q
    ensures MarkerKey(p, "inject(name=\"" + q + "\")") == Some(Key(p, Some(q)))
  {
    ParseRender(Marker(Some(q), None));
    NamedTexts(q, "");
  }

  /** `inject(name="Q"):K` asks for `(K, Q)`. */
  lemma NamedTypedMarker(p: string, q: string, k: string)
    requires '"' !in q && k != []
    ensures MarkerKey(p, "inject(name=\"" + q + "\"):" + k) == Some(Key(k, Some(q)))
  {
    ParseRender(Marker(Some(q), Some(k)));
    NamedTexts(q, k);
  }

  /** Only strings that begin with `inject` are markers; any other string
      value, such as `Hello World`, is not an injection point. */
  lemma MarkersStartWithKeyword(prop: string, value: string)
    requires MarkerKey(prop, value).Some?
    ensures Keyword <= value
  {
    StripPrefixSpec(Keyword, value);
  }
}

=== FILE: properties.dfy ===
/** Properties that relate several injector operations: what a mapping makes
    resolvable and where, how the chain is walked, what the three rule kinds
    hand out, and what `injectInto` does to a target. */
module Properties {
  import opened Wrappers
  import opened Values
  import opened Registry
  import opened Marker
  import opened Hierarchy
  import opened Injector

  // ---------------------------------------------------------------------
  // Local lookup and the chain

  /** A key an injector binds itself is answered by that injector's own
      rule, whatever its ancestors bind. */
  lemma LocalWins(w: World, n: NodeId, k: Key)
    requires Valid(w) && n < |w.nodes| && HasDirect(w, n, k)
    ensures Owner(w, n, k) == Some(n)
    ensures GetInstance(w, n, k) == Success(Instantiate(w, n, k))
  {
  }

  /** After `map(k).toValue(v)` on `n`, `n.getInstance(k)` returns `v` and
      changes nothing; `n` has the mapping, directly. */
  lemma MapThenGet(w: World, n: NodeId, k: Key, v: Value)
    requires Valid(w) && n < |w.nodes|
    ensures var w' := Map(w, n, k, ToValue(v));
      && HasDirect(w', n, k) && HasMapping(w', n, k)
      && GetInstance(w', n, k) == Success(Resolved(v, w'))
  {
    var w' := Map(w, n, k, ToValue(v));
    LocalWins(w', n, k);
  }

  /** Two injectors with the same rule for `k` and worlds with as many
      objects hand out the same value. */
  lemma SameRuleSameValue(w0: World, w1: World, o: NodeId, k: Key)
    requires o < |w0.nodes| && o < |w1.nodes| && k in w0.nodes[o].registry && k in w1.nodes[o].registry
    requires w0.nodes[o].registry[k] == w1.nodes[o].registry[k] && |w0.heap| == |w1.heap|
    ensures Instantiate(w0, o, k).value == Instantiate(w1, o, k).value
  {
  }

  /** What a request for `k` gives depends only on the parents, the rules
      bound under `k` and the number of objects. */
  lemma SameRulesSameAnswer(w0: World, w1: World, m: NodeId, k: Key)
    requires Valid(w0) && Valid(w1) && m < |w0.nodes| && SameParents(w0.nodes, w1.nodes)
    requires forall i :: 0 <= i < |w0.nodes| ==> Lookup(w0.nodes[i].registry, k) == Lookup(w1.nodes[i].registry, k)
    requires |w0.heap| == |w1.heap|
    ensures GetInstance(w0, m, k).Failure? == GetInstance(w1, m, k).Failure?
    ensures GetInstance(w0, m, k).Success? ==>
      GetInstance(w0, m, k).value.value == GetInstance(w1, m, k).value.value
  {
    assert SameHolders(w0.nodes, w1.nodes, k) by {
      forall i | 0 <= i < |w0.nodes|
        ensures k in w0.nodes[i].registry <==> k in w1.nodes[i].registry
      {
        assert Lookup(w0.nodes[i].registry, k) == Lookup(w1.nodes[i].registry, k);
      }
    }
    HoldersDecideOwner(w0.nodes, w1.nodes, m, k, |w0.nodes|);
    var owner := Owner(w0, m, k);
    if owner.Some? {
      var o := owner.value;
      FindOwnerSpec(w0.nodes, m, k, |w0.nodes|);
      assert FirstHolder(w0.nodes, Ancestors(w0, m), k, o);
      assert Lookup(w0.nodes[o].registry, k) == Lookup(w1.nodes[o].registry, k);
      SameRuleSameValue(w0, w1, o, k);
      assert GetInstance(w0, m, k) == Success(Instantiate(w0, o, k));
      assert GetInstance(w1, m, k) == Success(Instantiate(w1, o, k));
    }
  }

  /** Binding one key on `n` leaves every other key, the same type under
      another name included, resolving as before, at every injector. */
  lemma MapLeavesOtherKeys(w: World, n: NodeId, k: Key, b: Binding, m: NodeId, other: Key)
    requires Valid(w) && n < |w.nodes| && m < |w.nodes| && other != k
    ensures GetInstance(Map(w, n, k, b), m, other).Failure? == GetInstance(w, m, other).Failure?
    ensures GetInstance(w, m, other).Success? ==>
      GetInstance(Map(w, n, k, b), m, other).value.value == GetInstance(w, m, other).value.value
  {
    var w' := Map(w, n, k, b);
    forall i | 0 <= i < |w.nodes|
      ensures Lookup(w.nodes[i].registry, other) == Lookup(w'.nodes[i].registry, other)
    {
    }
    SameRulesSameAnswer(w, w', m, other);
  }

  /** An injector that does not bind `k` itself has its parent's owner
      for `k`. */
  lemma OwnerDelegates(w: World, c: NodeId, p: NodeId, k: Key)
    requires Valid(w) && c < |w.nodes| && w.nodes[c].parent == Some(p) && !HasDirect(w, c, k)
    ensures p < |w.nodes| && Owner(w, c, k) == Owner(w, p, k)
  {
    OwnerFromParent(w.nodes, c, p, k);
  }

  /** A request an injector cannot answer itself goes to its parent: the
      answer, and whether there is one, are the parent's. */
  lemma DelegatesToParent(w: World, c: NodeId, p: NodeId, k: Key)
    requires Valid(w) && c < |w.nodes| && w.nodes[c].parent == Some(p) && !HasDirect(w, c, k)
    ensures p < |w.nodes|
    ensures HasMapping(w, c, k) == HasMapping(w, p, k)
    ensures GetInstance(w, c, k) == GetInstance(w, p, k)
  {
    OwnerDelegates(w, c, p, k);
  }

  /** A value bound on a parent, after the child was created, is what the
      child hands out too, as long as the child does not bind the key. */
  lemma MapOnParentSeenByChild(w: World, c: NodeId, p: NodeId, k: Key, v: Value)
    requires Valid(w) && c < |w.nodes| && w.nodes[c].parent == Some(p) && !HasDirect(w, c, k)
    ensures p < |w.nodes|
    ensures var w' := Map(w, p, k, ToValue(v));
      && HasMapping(w', c, k) && !HasDirect(w', c, k)
      && GetInstance(w', c, k) == Success(Resolved(v, w'))
  {
    assert ParentOf(w, c) == Some(p);
    NotOnParentChain(w.nodes, c, p);
    assert Ancestors(w, p)[0] == p;
    var w' := Map(w, p, k, ToValue(v));
    assert w'.nodes[c] == w.nodes[c];
    MapThenGet(w, p, k, v);
    DelegatesToParent(w', c, p, k);
  }

  /** A request passes up any number of injectors that do not bind the key:
      a grandchild answers as its grandparent does. */
  lemma DelegatesTwoLevels(w: World, g: NodeId, c: NodeId, p: NodeId, k: Key)
    requires Valid(w) && g < |w.nodes| && w.nodes[g].parent == Some(c) && !HasDirect(w, g, k)
    requires c < |w.nodes| && w.nodes[c].parent == Some(p) && !HasDirect(w, c, k)
    ensures p < |w.nodes|
    ensures HasMapping(w, g, k) == HasMapping(w, p, k)
    ensures GetInstance(w, g, k) == GetInstance(w, p, k)
  {
    DelegatesToParent(w, g, c, k);
    DelegatesToParent(w, c, p, k);
  }

  /** `hasMapping` holds exactly when the injector binds the key itself or
      its parent has the mapping. */
  lemma HasMappingRecurrence(w: World, n: NodeId, k: Key)
    requires Valid(w) && n < |w.nodes|
    ensures HasMapping(w, n, k) <==>
      HasDirect(w, n, k) || (w.nodes[n].parent.Some? && HasMapping(w, w.nodes[n].parent.value, k))
  {
    if !HasDirect(w, n, k) && w.nodes[n].parent.Some? {
      DelegatesToParent(w, n, w.nodes[n].parent.value, k);
    }
  }

  /** A root that does not bind a key throws the not-found error for it. */
  lemma RootMisses(w: World, n: NodeId, k: Key)
    requires Valid(w) && n < |w.nodes| && w.nodes[n].parent.None? && !HasDirect(w, n, k)
    ensures !HasMapping(w, n, k)
    ensures GetInstance(w, n, k) == Failure(NotFound(k))
  {
  }

  /** After `unmap(k)` a root throws the not-found error for `k`; a child
      then answers `k` as its parent does. */
  lemma UnmapThenGet(w: World, n: NodeId, k: Key)
    requires Valid(w) && n < |w.nodes|
    ensures var w' := Unmap(w, n, k);
      && !HasDirect(w', n, k)
      && (ParentOf(w', n).None? ==> GetInstance(w', n, k) == Failure(NotFound(k)))
      && (ParentOf(w', n).Some? ==> GetInstance(w', n, k) == GetInstance(w', ParentOf(w', n).value, k))
  {
    var w' := Unmap(w, n, k);
    if ParentOf(w', n).Some? {
      DelegatesToParent(w', n, ParentOf(w', n).value, k);
    } else {
      RootMisses(w', n, k);
    }
  }

  /** After `teardown()` a root throws the not-found error for every key it
      used to bind (the self-mapping aside), and a child answers every such
      key as its parent does. */
  lemma TeardownThenGet(w: World, n: NodeId, k: Key)
    requires Valid(w) && n < |w.nodes| && k != InjectorKey
    ensures var w' := Teardown(w, n);
      && !HasDirect(w', n, k)
      && (ParentOf(w', n).None? ==> GetInstance(w', n, k) == Failure(NotFound(k)))
      && (ParentOf(w', n).Some? ==> GetInstance(w', n, k) == GetInstance(w', ParentOf(w', n).value, k))
  {
    var w' := Teardown(w, n);
    if ParentOf(w', n).Some? {
      DelegatesToParent(w', n, ParentOf(w', n).value, k);
    } else {
      RootMisses(w', n, k);
    }
  }

  /** A binding made on an injector off the chain of `m` is invisible from
      `m`: which injector answers each key, and whether any does, stay as
      they were. */
  lemma MapInvisibleOffChain(w: World, x: NodeId, k: Key, b: Binding, m: NodeId, q: Key)
    requires Valid(w) && x < |w.nodes| && m < |w.nodes| && x !in Ancestors(w, m)
    ensures Owner(Map(w, x, k, b), m, q) == Owner(w, m, q)
    ensures HasMapping(Map(w, x, k, b), m, q) == HasMapping(w, m, q)
    ensures GetInstance(Map(w, x, k, b), m, q).Failure? == GetInstance(w, m, q).Failure?
  {
    var w' := Map(w, x, k, b);
    assert w'.nodes == w.nodes[x := Node(w'.nodes[x].registry, w.nodes[x].parent)];
    OwnerOffChain(w.nodes, x, w'.nodes[x].registry, m, q, |w.nodes|);
  }

  /** A parent never sees what is bound only on its child: it has the same
      mappings and hands out the same values as before. */
  lemma ParentBlindToChild(w: World, c: NodeId, p: NodeId, k: Key, b: Binding, q: Key)
    requires Valid(w) && c < |w.nodes| && w.nodes[c].parent == Some(p)
    ensures p < |w.nodes|
    ensures HasMapping(Map(w, c, k, b), p, q) == HasMapping(w, p, q)
    ensures GetInstance(Map(w, c, k, b), p, q).Failure? == GetInstance(w, p, q).Failure?
    ensures GetInstance(w, p, q).Success? ==>
      GetInstance(Map(w, c, k, b), p, q).value.value == GetInstance(w, p, q).value.value
  {
    assert ParentOf(w, c) == Some(p);
    NotOnParentChain(w.nodes, c, p);
    MapInvisibleOffChain(w, c, k, b, p, q);
    var w' := Map(w, c, k, b);
    match Owner(w, p, q)
    case None =>
    case Some(o) =>
      FindOwnerSpec(w.nodes, p, q, |w.nodes|);
      assert o in Ancestors(w, p) && o < |w.nodes|;
      assert w'.nodes[o] == w.nodes[o];
      SameRuleSameValue(w, w', o, q);
      assert GetInstance(w, p, q) == Success(Instantiate(w, o, q));
      assert GetInstance(w', p, q) == Success(Instantiate(w', o, q));
  }

  /** A child may bind a key its parent binds: the child then answers with
      its own value, and the parent still answers as before. */
  lemma ChildShadowsParent(w: World, c: NodeId, p: NodeId, k: Key, v: Value)
    requires Valid(w) && c < |w.nodes| && w.nodes[c].parent == Some(p)
    ensures p < |w.nodes|
    ensures GetInstance(Map(w, c, k, ToValue(v)), c, k) == Success(Resolved(v, Map(w, c, k, ToValue(v))))
    ensures Owner(Map(w, c, k, ToValue(v)), p, k) == Owner(w, p, k)
  {
    MapThenGet(w, c, k, v);
    assert ParentOf(w, c) == Some(p);
    NotOnParentChain(w.nodes, c, p);
    MapInvisibleOffChain(w, c, k, ToValue(v), p, k);
  }

  /** A key bound on the parent after it created a child: both have the
      mapping, the parent directly and the child only through its parent
      (unless the key is `"injector"`, which every injector binds itself). */
  lemma InheritedNotDirect(w: World, p: NodeId, k: Key, v: Value)
    requires Valid(w) && p < |w.nodes| && k != InjectorKey
    ensures var s := CreateChildInjector(w, p);
      var w' := Map(s.world, p, k, ToValue(v));
      && HasDirect(w', p, k) && !HasDirect(w', s.id, k)
      && HasMapping(w', p, k) && HasMapping(w', s.id, k)
  {
    var s := CreateChildInjector(w, p);
    var w' := Map(s.world, p, k, ToValue(v));
    assert w'.nodes[s.id] == s.world.nodes[s.id];
    LocalWins(w', p, k);
    DelegatesToParent(w', s.id, p, k);
  }

  // ---------------------------------------------------------------------
  // The self-mapping

  /** An injector that maps `"injector"` to itself resolves it to itself,
      never to an ancestor. */
  lemma SelfResolves(w: World, n: NodeId)
    requires Valid(w) && SelfMapped(w, n)
    ensures GetInstance(w, n, InjectorKey) == Success(Resolved(Inj(n), w))
  {
    LocalWins(w, n, InjectorKey);
  }

  /** A parent and the child it creates each resolve `"injector"` to
      themselves, and those are different injectors. */
  lemma ParentAndChildResolveThemselves(w: World, p: NodeId)
    requires Valid(w) && SelfMapped(w, p)
    ensures var s := CreateChildInjector(w, p);
      && GetInstance(s.world, s.id, InjectorKey) == Success(Resolved(Inj(s.id), s.world))
      && GetInstance(s.world, p, InjectorKey) == Success(Resolved(Inj(p), s.world))
      && Inj(s.id) != Inj(p)
  {
    var s := CreateChildInjector(w, p);
    assert s.world.nodes[p] == w.nodes[p];
    SelfResolves(s.world, s.id);
    SelfResolves(s.world, p);
  }

  // ---------------------------------------------------------------------
  // The parent reference

  /** A new injector has no parent; a created child has its creator as
      parent, and the creator's own parent is unchanged. */
  lemma ParentOfNewInjectors(w: World, n: NodeId)
    requires Valid(w) && n < |w.nodes|
    ensures var s := NewInjector(w); GetParentInjector(s.world, s.id) == Null
    ensures var s := CreateChildInjector(w, n);
      GetParentInjector(s.world, s.id) == Inj(n) && GetParentInjector(s.world, n) == GetParentInjector(w, n)
  {
    var s := CreateChildInjector(w, n);
    assert s.world.nodes[n] == w.nodes[n];
  }

  /** `setParentInjector` with anything but an injector or `null` throws
      the invalid-parent error. */
  lemma SetParentRejects(w: World, n: NodeId, v: Value)
    requires Valid(w) && n < |w.nodes| && (v.Str? || v.Obj?)
    ensures SetParentInjector(w, n, v) == Failure(NotAnInjector)
  {
  }

  /** Setting the parent and then clearing it leaves a root again, with its
      bindings untouched. */
  lemma SetThenClearParent(w: World, n: NodeId, p: NodeId)
    requires Valid(w) && n < |w.nodes| && p < |w.nodes| && n !in Ancestors(w, p)
    ensures var w1 := SetParentInjector(w, n, Inj(p)).value;
      && GetParentInjector(w1, n) == Inj(p)
      && var w2 := SetParentInjector(w1, n, Null).value;
      && GetParentInjector(w2, n) == Null
      && w2.nodes[n].registry == w.nodes[n].registry
  {
  }

  // ---------------------------------------------------------------------
  // Rule kinds

  /** A type binding builds a new object on every request: two requests
      give two different objects, both built by the factory. */
  lemma TypeGivesFreshInstances(w: World, n: NodeId, k: Key, o: NodeId, f: Factory)
    requires Valid(w) && n < |w.nodes| && Owner(w, n, k) == Some(o)
    requires o < |w.nodes| && k in w.nodes[o].registry && w.nodes[o].registry[k] == TypeRule(f)
    ensures var r1 := GetInstance(w, n, k);
      && r1.Success?
      && var r2 := GetInstance(r1.value.world, n, k);
      && r2.Success?
      && r1.value.value.Obj? && r2.value.value.Obj?
      && r1.value.value != r2.value.value
      && r2.value.world.heap[r1.value.value.ref] == NewInstance(f)
      && r2.value.world.heap[r2.value.value.ref] == NewInstance(f)
  {
    var r1 := GetInstance(w, n, k).value;
    EvolvesKeepsMapping(w, r1.world, n, k);
    var r2 := GetInstance(r1.world, n, k).value;
    assert r2.world.heap[..|r1.world.heap|] == r1.world.heap;
  }

  /** Two requests of a type binding give objects that share nothing:
      changing a property of the second is not seen through the first,
      which still reads what the factory put there. */
  lemma TypeInstancesNotShared(w: World, n: NodeId, k: Key, o: NodeId, f: Factory, name: string, v: Value)
    requires Valid(w) && n < |w.nodes| && Owner(w, n, k) == Some(o)
    requires o < |w.nodes| && k in w.nodes[o].registry && w.nodes[o].registry[k] == TypeRule(f)
    ensures var r1 := GetInstance(w, n, k);
      && r1.Success? && r1.value.value.Obj?
      && var r2 := GetInstance(r1.value.world, n, k);
      && r2.Success? && r2.value.value.Obj?
      && var x1, x2 := r1.value.value.ref, r2.value.value.ref;
      && x1 < |r2.value.world.heap| && x2 < |r2.value.world.heap|
      && Read(Assign(r2.value.world, x2, name, v), x1, name) == ReadField(f.instanceFields, name)
  {
    TypeGivesFreshInstances(w, n, k, o, f);
  }

  /** A singleton binding hands out one object: the first request of one
      that has none yet builds it with the factory, as a new object, and a
      second request returns the first request's object and changes
      nothing. */
  lemma SingletonGivesSameInstance(w: World, n: NodeId, k: Key, o: NodeId, f: Factory, c: Option<Ref>)
    requires Valid(w) && n < |w.nodes| && Owner(w, n, k) == Some(o)
    requires o < |w.nodes| && k in w.nodes[o].registry && w.nodes[o].registry[k] == SingletonRule(f, c)
    ensures var r1 := GetInstance(w, n, k);
      && r1.Success?
      && GetInstance(r1.value.world, n, k) == Success(Resolved(r1.value.value, r1.value.world))
      && (c.Some? ==> r1.value.value == Obj(c.value))
      && (c.None? ==> r1.value.value == Obj(|w.heap|) && r1.value.world.heap == w.heap + [NewInstance(f)])
  {
    var r1 := GetInstance(w, n, k).value;
    EvolvesKeepsMapping(w, r1.world, n, k);
    assert r1.world.nodes[o].registry[k] == SingletonRule(f, Some(r1.value.ref));
  }

  /** Two requests of a singleton binding give one object: a change made
      through the second reference is seen through the first. */
  lemma SingletonChangesShared(w: World, n: NodeId, k: Key, o: NodeId, f: Factory, c: Option<Ref>, name: string, v: Value)
    requires Valid(w) && n < |w.nodes| && Owner(w, n, k) == Some(o)
    requires o < |w.nodes| && k in w.nodes[o].registry && w.nodes[o].registry[k] == SingletonRule(f, c)
    ensures var r1 := GetInstance(w, n, k);
      && r1.Success? && r1.value.value.Obj?
      && var r2 := GetInstance(r1.value.world, n, k);
      && r2.Success? && r2.value.value.Obj?
      && var x1, x2 := r1.value.value.ref, r2.value.value.ref;
      && x1 < |r2.value.world.heap| && x2 < |r2.value.world.heap|
      && Read(Assign(r2.value.world, x2, name, v), x1, name) == Some(v)
  {
    SingletonGivesSameInstance(w, n, k, o, f, c);
  }

  // ---------------------------------------------------------------------
  // injectInto

  /** A marker whose key is answered by a value binding is replaced by
      that value. */
  lemma InjectsBoundValue(w: World, n: NodeId, t: Ref, i: nat, k: Key, o: NodeId, v: Value)
    requires Valid(w) && n < |w.nodes| && t < |w.heap| && i < |w.heap[t].fields|
    requires FieldKey(w.heap[t].fields[i]) == Some(k) && Owner(w, n, k) == Some(o)
    requires o < |w.nodes| && Lookup(w.nodes[o].registry, k) == Some(ValueRule(v))
    ensures InjectInto(w, n, t).Success? ==>
      InjectInto(w, n, t).value.heap[t].fields[i] == Field(w.heap[t].fields[i].name, v)
  {
    var r := InjectInto(w, n, t);
    if r.Success? {
      var w' := r.value;
      assert InjectedField(w, w', n, w.heap[t].fields[i], w'.heap[t].fields[i]);
      HoldersDecideOwner(w.nodes, w'.nodes, n, k, |w.nodes|);
    }
  }

  /** A marker whose key is answered by a type binding is replaced by a
      new object that the type built. */
  lemma InjectsTypeInstance(w: World, n: NodeId, t: Ref, i: nat, k: Key, o: NodeId, f: Factory)
    requires Valid(w) && n < |w.nodes| && t < |w.heap| && i < |w.heap[t].fields|
    requires FieldKey(w.heap[t].fields[i]) == Some(k) && Owner(w, n, k) == Some(o)
    requires o < |w.nodes| && Lookup(w.nodes[o].registry, k) == Some(TypeRule(f))
    ensures InjectInto(w, n, t).Success? ==>
      var w' := InjectInto(w, n, t).value;
      var v := w'.heap[t].fields[i].value;
      && w'.heap[t].fields[i].name == w.heap[t].fields[i].name
      && v.Obj? && |w.heap| <= v.ref < |w'.heap| && w'.heap[v.ref] == NewInstance(f)
  {
    var r := InjectInto(w, n, t);
    if r.Success? {
      var w' := r.value;
      assert InjectedField(w, w', n, w.heap[t].fields[i], w'.heap[t].fields[i]);
      HoldersDecideOwner(w.nodes, w'.nodes, n, k, |w.nodes|);
    }
  }

  /** Creating an injector keeps each object a value binding hands out
      existing: the new injector binds only itself. */
  lemma SpawnKeepsValuesLive(w: World, n: NodeId)
    requires Valid(w) && ValuesLive(w)
    ensures ValuesLive(NewInjector(w).world)
    ensures n < |w.nodes| ==> ValuesLive(CreateChildInjector(w, n).world)
  {
    var spawned := NewInjector(w).world;
    assert forall m :: 0 <= m < |w.nodes| ==> spawned.nodes[m] == w.nodes[m];
    if n < |w.nodes| {
      var child := CreateChildInjector(w, n).world;
      assert forall m :: 0 <= m < |w.nodes| ==> child.nodes[m] == w.nodes[m];
    }
  }

  /** The registry operations keep each object a value binding hands out
      existing, provided a new value binding names an existing object. */
  lemma RegistryKeepsValuesLive(w: World, n: NodeId, k: Key, b: Binding)
    requires Valid(w) && ValuesLive(w) && n < |w.nodes|
    ensures (b.ToValue? && b.value.Obj? ==> b.value.ref < |w.heap|) ==> ValuesLive(Map(w, n, k, b))
    ensures ValuesLive(Unmap(w, n, k)) && ValuesLive(Teardown(w, n))
  {
  }

  /** Setting the parent keeps each object a value binding hands out
      existing: no registry changes. */
  lemma ReparentKeepsValuesLive(w: World, n: NodeId, v: Value)
    requires Valid(w) && ValuesLive(w) && n < |w.nodes|
    requires v.Inj? ==> v.node < |w.nodes| && n !in Ancestors(w, v.node)
    ensures SetParentInjector(w, n, v).Success? ==> ValuesLive(SetParentInjector(w, n, v).value)
  {
  }

  /** Creating and changing objects keeps each object a value binding hands
      out existing. */
  lemma ObjectsKeepValuesLive(w: World, o: Object, x: Ref, name: string, v: Value)
    requires Valid(w) && ValuesLive(w)
    ensures ValuesLive(Allocate(w, o).world)
    ensures x < |w.heap| ==> ValuesLive(Assign(w, x, name, v))
  {
  }

  /** Resolution keeps each object a value binding hands out existing. */
  lemma ResolutionKeepsValuesLive(w: World, n: NodeId, k: Key, t: Ref)
    requires Valid(w) && ValuesLive(w) && n < |w.nodes|
    ensures GetInstance(w, n, k).Success? ==> ValuesLive(GetInstance(w, n, k).value.world)
    ensures t < |w.heap| && InjectInto(w, n, t).Success? ==> ValuesLive(InjectInto(w, n, t).value)
  {
    if GetInstance(w, n, k).Success? {
      EvolvesKeepsValuesLive(w, GetInstance(w, n, k).value.world);
    }
    if t < |w.heap| && InjectInto(w, n, t).Success? {
      InjectKeepsValuesLive(w, n, t);
    }
  }

  /** `injectInto` keeps each object a value binding hands out existing: its
      value bindings are those it started with. */
  lemma InjectKeepsValuesLive(w: World, n: NodeId, t: Ref)
    requires Valid(w) && ValuesLive(w) && n < |w.nodes| && t < |w.heap| && InjectInto(w, n, t).Success?
    ensures ValuesLive(InjectInto(w, n, t).value)
  {
    var w' := InjectInto(w, n, t).value;
    forall m, k | 0 <= m < |w'.nodes| && k in w'.nodes[m].registry && w'.nodes[m].registry[k].ValueRule?
        && w'.nodes[m].registry[k].value.Obj?
      ensures w'.nodes[m].registry[k].value.ref < |w'.heap|
    {
      assert k in w.nodes[m].registry;
      assert RuleKept(w.nodes[m].registry[k], w'.nodes[m].registry[k]);
    }
  }

  /** A value binding survives `injectInto`: the same injector answers the
      key, with the same value, from every injector that reached it before. */
  lemma ValueBindingSurvivesInject(w: World, n: NodeId, t: Ref, m: NodeId, k: Key, o: NodeId, v: Value)
    requires Valid(w) && n < |w.nodes| && t < |w.heap| && m < |w.nodes|
    requires Owner(w, m, k) == Some(o) && o < |w.nodes| && Lookup(w.nodes[o].registry, k) == Some(ValueRule(v))
    ensures InjectInto(w, n, t).Success? ==>
      var w' := InjectInto(w, n, t).value;
      && Owner(w', m, k) == Some(o)
      && Lookup(w'.nodes[o].registry, k) == Some(ValueRule(v))
      && GetInstance(w', m, k) == Success(Resolved(v, w'))
  {
    if InjectInto(w, n, t).Success? {
      var w' := InjectInto(w, n, t).value;
      assert SameHolders(w.nodes, w'.nodes, k);
      HoldersDecideOwner(w.nodes, w'.nodes, m, k, |w.nodes|);
      assert RuleKept(w.nodes[o].registry[k], w'.nodes[o].registry[k]);
    }
  }

  /** The number of calls of one method `Calls` makes is the number of
      times `postConstructs` names it. */
  lemma {:induction false} CallsCount(t: Ref, names: seq<string>, seen: seq<Field>, m: string)
    ensures multiset(Calls(t, names, seen))[Call(t, m, seen)] == multiset(names)[m]
    decreases |names|
  {
    if names != [] {
      var init := names[..|names| - 1];
      CallsCount(t, init, seen, m);
      assert names == init + [names[|names| - 1]];
      assert Calls(t, names, seen) == Calls(t, init, seen) + [Call(t, names[|names| - 1], seen)];
    }
  }

  /** `injectInto` calls each method `postConstructs` names exactly as many
      times as it is named (once for a single entry), on the target, and
      makes no other call; every call comes after injection: it sees each
      marker property already replaced by what its key resolves to. */
  lemma PostConstructsCalledOnce(w: World, n: NodeId, t: Ref, m: string)
    requires Valid(w) && n < |w.nodes| && t < |w.heap|
    requires InjectInto(w, n, t).Success?
    ensures var w' := InjectInto(w, n, t).value;
      var added := w'.log[|w.log|..];
      && multiset(added)[Call(t, m, w'.heap[t].fields)] == multiset(w.heap[t].postConstructs)[m]
      && (forall c :: c in added ==> c.target == t && c.name in w.heap[t].postConstructs)
      && forall c :: c in added ==> AllInjected(w, w', n, w.heap[t].fields, c.seen)
  {
    var w' := InjectInto(w, n, t).value;
    assert w'.log[|w.log|..] == Calls(t, w.heap[t].postConstructs, w'.heap[t].fields);
    CallsCount(t, w.heap[t].postConstructs, w'.heap[t].fields, m);
  }

  /** The exact error texts. */
  lemma ErrorTexts(t: string, name: string)
    ensures Message(NotFound(Key(t, None))) ==
      "Cannot return instance \"" + t + "\" because no mapping has been found"
    ensures Message(NotFound(Key(t, Some(name)))) ==
      "Cannot return instance \"" + t + " by name " + name + "\" because no mapping has been found"
    ensures Message(NotAnInjector) == "Cannot set the parentInjector because it is not an injector"
  {
  }
}

=== FILE: registry.dfy ===
/** The mapping registry of one injector: binding keys, binding rules and the
    four registry operations (`map(...).toX`, `unmap`, `hasDirectMapping`,
    and the clearing `teardown` performs). */
module Registry {
  import opened Wrappers
  import opened Values

  /** A binding key: a type identifier and an optional qualifier name. An
      absent name and the empty name are different keys. */
  datatype Key = Key(typeId: string, name: Option<string>)

  /** The key every injector maps to itself when it is constructed. */
  const InjectorKey: Key := Key("injector", None)

  /** How a key is resolved. A singleton carries the instance it created on
      its first resolution, once there has been one. */
  datatype Rule =
    | ValueRule(value: Value)
    | TypeRule(factory: Factory)
    | SingletonRule(factory: Factory, cached: Option<Ref>)

  /** The three terminal calls of the rule builder `map(type, name)`. */
  datatype Binding = ToValue(value: Value) | ToType(factory: Factory) | ToSingleton(factory: Factory)

  type Registry = map<Key, Rule>

  /** The rule a builder call commits; a new singleton has no instance yet. */
  function RuleOf(b: Binding): Rule {
    match b
    case ToValue(v) => ValueRule(v)
    case ToType(f) => TypeRule(f)
    case ToSingleton(f) => SingletonRule(f, None)
  }

  /** The rule registered under `k`, if any. */
  function Lookup(reg: Registry, k: Key): Option<Rule> {
    if k in reg then Some(reg[k]) else None
  }

  /** `hasDirectMapping`: whether this registry itself holds `k`, that is,
      whether looking `k` up finds a rule. */
  predicate HasDirectMapping(reg: Registry, k: Key): (b: bool)
    ensures b <==> Lookup(reg, k).Some?
  {
    k in reg
  }

  /** `map(k).toX(...)`: commit a rule under `k`, silently replacing any
      earlier rule for the same key. */
  function MapKey(reg: Registry, k: Key, b: Binding): (r: Registry)
    ensures Lookup(r, k) == Some(RuleOf(b))
    ensures forall k' :: k' != k ==> Lookup(r, k') == Lookup(reg, k')
  {
    reg[k := RuleOf(b)]
  }

  /** `unmap(k)`: remove the rule for `k`; no error when there is none. */
  function UnmapKey(reg: Registry, k: Key): (r: Registry)
    ensures !HasDirectMapping(r, k)
    ensures forall k' :: k' != k ==> Lookup(r, k') == Lookup(reg, k')
  {
    reg - {k}
  }

  /** Re-registering a key keeps only the last rule. */
  lemma MapOverwrites(reg: Registry, k: Key, first: Binding, second: Binding)
    ensures MapKey(MapKey(reg, k, first), k, second) == MapKey(reg, k, second)
  {
  }

  /** Unmapping a key undoes mapping it: what is left is what was there
      besides that key. */
  lemma UnmapUndoesMap(reg: Registry, k: Key, b: Binding)
    ensures UnmapKey(MapKey(reg, k, b), k) == UnmapKey(reg, k)
    ensures k !in reg ==> UnmapKey(MapKey(reg, k, b), k) == reg
  {
  }

  /** How `map` and `unmap` change what `hasDirectMapping` reports: mapping
      adds exactly the mapped key, unmapping removes exactly the unmapped
      one. */
  lemma {:induction false} DirectMappingsAfterEdits(reg: Registry, k: Key, b: Binding, k': Key)
    ensures HasDirectMapping(MapKey(reg, k, b), k') <==> k' == k || HasDirectMapping(reg, k')
    ensures HasDirectMapping(UnmapKey(reg, k), k') <==> k' != k && HasDirectMapping(reg, k')
  {
    if k' != k {
      assert Lookup(MapKey(reg, k, b), k') == Lookup(reg, k');
      assert Lookup(UnmapKey(reg, k), k') == Lookup(reg, k');
    }
  }

  /** Two names under one type are independent keys: binding one leaves the
      other as it was. */
  lemma NamesAreIndependent(reg: Registry, t: string, n1: string, n2: string, b: Binding)
    requires n1 != n2
    ensures Lookup(MapKey(reg, Key(t, Some(n1)), b), Key(t, Some(n2))) == Lookup(reg, Key(t, Some(n2)))
    ensures Lookup(MapKey(reg, Key(t, Some(n1)), b), Key(t, None)) == Lookup(reg, Key(t, None))
  {
  }
}

=== FILE: scenarios.dfy ===
/** The injector's documented usage, step by step, from any valid world: each
    lemma follows one usage scenario from a fresh injector to the values it
    hands out. */
module Scenarios {
  import opened Wrappers
  import opened Values
  import opened Registry
  import opened Marker
  import opened Hierarchy
  import opened Injector
  import opened Properties

  const Hello: Value := Str("Hello World")

  /** `injectInto` succeeds on an object whose only property is a
      resolvable marker. */
  lemma OneMarkerResolves(w: World, n: NodeId, t: Ref, f: Field)
    requires Valid(w) && n < |w.nodes| && t < |w.heap| && w.heap[t].fields == [f]
    requires FieldKey(f).Some? && HasMapping(w, n, FieldKey(f).value)
    ensures InjectInto(w, n, t).Success?
  {
    var bad := (g: Field) => Unresolvable(w, n, g);
    NoneBadInSingleton(bad, w.heap[t].fields, f);
  }

  /** List reasoning behind the lemma above, for any property of elements:
      no element of a one-element list has a property its element lacks.
      Stated over an arbitrary predicate so that the solver does not unfold
      the marker parser. */
  lemma NoneBadInSingleton<T>(bad: T -> bool, xs: seq<T>, a: T)
    requires xs == [a] && !bad(a)
    ensures forall i :: 0 <= i < |xs| ==> !bad(xs[i])
  {
  }

  /** An object whose only property is a marker answered by a value
      binding holds that value after `injectInto`, and its post-construct
      methods are called, each seeing the injected property. */
  lemma InjectOneField(w: World, n: NodeId, t: Ref, prop: string, marker: string, k: Key, o: NodeId, v: Value)
    requires Valid(w) && n < |w.nodes| && t < |w.heap| && w.heap[t].fields == [Field(prop, Str(marker))]
    requires FieldKey(Field(prop, Str(marker))) == Some(k) && Owner(w, n, k) == Some(o)
    requires o < |w.nodes| && Lookup(w.nodes[o].registry, k) == Some(ValueRule(v))
    ensures var r := InjectInto(w, n, t);
      && r.Success?
      && Read(r.value, t, prop) == Some(v)
      && r.value.log == w.log + Calls(t, w.heap[t].postConstructs, [Field(prop, v)])
  {
    OneMarkerResolves(w, n, t, Field(prop, Str(marker)));
    InjectsBoundValue(w, n, t, 0, k, o, v);
    var r := InjectInto(w, n, t).value;
    assert |r.heap[t].fields| == 1;
    assert r.heap[t].fields == [Field(prop, v)];
  }

  /** A fresh injector binding `k` to `v` injects `v` into a one-property
      object whose marker asks for `k`, then calls its post-construct
      methods, which see the injected value. */
  lemma InjectOneMarker(w: World, prop: string, marker: string, k: Key, v: Value, pcs: seq<string>)
    requires Valid(w) && FieldKey(Field(prop, Str(marker))) == Some(k)
    ensures var s := NewInjector(w);
      var w1 := Map(s.world, s.id, k, ToValue(v));
      var a := Allocate(w1, Object([Field(prop, Str(marker))], pcs));
      var r := InjectInto(a.world, s.id, a.ref);
      && r.Success?
      && a.ref < |r.value.heap|
      && Read(r.value, a.ref, prop) == Some(v)
      && r.value.log == a.world.log + Calls(a.ref, pcs, [Field(prop, v)])
  {
    var s := NewInjector(w);
    var w1 := Map(s.world, s.id, k, ToValue(v));
    var a := Allocate(w1, Object([Field(prop, Str(marker))], pcs));
    LocalWins(a.world, s.id, k);
    InjectOneField(a.world, s.id, a.ref, prop, marker, k, s.id, v);
  }

  /** `{someValue: 'inject'}` injected by an injector that maps `someValue`
      to a string ends up holding that string. */
  lemma InjectByPropertyName(w: World)
    requires Valid(w)
    ensures var s := NewInjector(w);
      var w1 := Map(s.world, s.id, Key("someValue", None), ToValue(Hello));
      var a := Allocate(w1, Object([Field("someValue", Str("inject"))], []));
      var r := InjectInto(a.world, s.id, a.ref);
      && r.Success?
      && a.ref < |r.value.heap|
      && Read(r.value, a.ref, "someValue") == Some(Hello)
  {
    BareMarker("someValue");
    InjectOneMarker(w, "someValue", "inject", Key("someValue", None), Hello, []);
  }

  /** `{otherValue: 'inject:someValue'}` is injected with what `someValue`
      is bound to, whatever the property is called. */
  lemma InjectByExplicitType(w: World)
    requires Valid(w)
    ensures var s := NewInjector(w);
      var w1 := Map(s.world, s.id, Key("someValue", None), ToValue(Hello));
      var a := Allocate(w1, Object([Field("otherValue", Str("inject:" + "someValue"))], []));
      var r := InjectInto(a.world, s.id, a.ref);
      && r.Success?
      && a.ref < |r.value.heap|
      && Read(r.value, a.ref, "otherValue") == Some(Hello)
  {
    TypedMarker("otherValue", "someValue");
    InjectOneMarker(w, "otherValue", "inject:" + "someValue", Key("someValue", None), Hello, []);
  }

  /** A fresh injector with two names bound under the type `someValue`. */
  function TwoNames(w: World): (s: Spawned)
    requires Valid(w)
    ensures Valid(s.world) && s.id < |s.world.nodes|
    ensures Owner(s.world, s.id, Key("someValue", Some("one"))) == Some(s.id)
    ensures Owner(s.world, s.id, Key("someValue", Some("two"))) == Some(s.id)
    ensures Lookup(s.world.nodes[s.id].registry, Key("someValue", Some("one"))) == Some(ValueRule(Str("Hello World 1")))
    ensures Lookup(s.world.nodes[s.id].registry, Key("someValue", Some("two"))) == Some(ValueRule(Str("Hello World 2")))
  {
    var s := NewInjector(w);
    var one, two := Key("someValue", Some("one")), Key("someValue", Some("two"));
    var w1 := Map(s.world, s.id, one, ToValue(Str("Hello World 1")));
    var w2 := Map(w1, s.id, two, ToValue(Str("Hello World 2")));
    LocalWins(w2, s.id, one);
    LocalWins(w2, s.id, two);
    Spawned(w2, s.id)
  }

  /** Two objects whose markers `inject(name="one")` and `inject(name="two")`
      name the two bindings, injected one after the other, end up holding
      the two values; injecting the second leaves the first as it was. */
  lemma InjectByName(w: World)
    requires Valid(w)
    ensures var s := TwoNames(w);
      var a1 := Allocate(s.world, Object([Field("someValue", Str("inject(name=\"" + "one" + "\")"))], []));
      var r1 := InjectInto(a1.world, s.id, a1.ref);
      && r1.Success?
      && var a2 := Allocate(r1.value, Object([Field("someValue", Str("inject(name=\"" + "two" + "\")"))], []));
      && var r2 := InjectInto(a2.world, s.id, a2.ref);
      && r2.Success?
      && a1.ref < |r2.value.heap| && a2.ref < |r2.value.heap|
      && Read(r2.value, a1.ref, "someValue") == Some(Str("Hello World 1"))
      && Read(r2.value, a2.ref, "someValue") == Some(Str("Hello World 2"))
  {
    var s := TwoNames(w);
    var one, two := Key("someValue", Some("one")), Key("someValue", Some("two"));
    var m1, m2 := "inject(name=\"" + "one" + "\")", "inject(name=\"" + "two" + "\")";
    NamedMarker("someValue", "one");
    NamedMarker("someValue", "two");
    var a1 := Allocate(s.world, Object([Field("someValue", Str(m1))], []));
    InjectOneField(a1.world, s.id, a1.ref, "someValue", m1, one, s.id, Str("Hello World 1"));
    ValueBindingSurvivesInject(a1.world, s.id, a1.ref, s.id, two, s.id, Str("Hello World 2"));
    var r1 := InjectInto(a1.world, s.id, a1.ref).value;
    var a2 := Allocate(r1, Object([Field("someValue", Str(m2))], []));
    InjectOneField(a2.world, s.id, a2.ref, "someValue", m2, two, s.id, Str("Hello World 2"));
    var r2 := InjectInto(a2.world, s.id, a2.ref).value;
    assert r2.heap[a1.ref] == r1.heap[a1.ref];
  }

  /** `injectInto` succeeds on an object whose two properties are
      resolvable markers. */
  lemma TwoMarkersResolve(w: World, n: NodeId, t: Ref, f1: Field, f2: Field)
    requires Valid(w) && n < |w.nodes| && t < |w.heap| && w.heap[t].fields == [f1, f2]
    requires FieldKey(f1).Some? && HasMapping(w, n, FieldKey(f1).value)
    requires FieldKey(f2).Some? && HasMapping(w, n, FieldKey(f2).value)
    ensures InjectInto(w, n, t).Success?
  {
    var bad := (f: Field) => Unresolvable(w, n, f);
    NoneBadInPair(bad, w.heap[t].fields, f1, f2);
  }

  /** List reasoning behind the lemma above, for any property of elements:
      no element of a two-element list has a property both elements lack.
      Stated over an arbitrary predicate so that the solver does not unfold
      the marker parser. */
  lemma NoneBadInPair<T>(bad: T -> bool, xs: seq<T>, a: T, b: T)
    requires xs == [a, b] && !bad(a) && !bad(b)
    ensures forall i :: 0 <= i < |xs| ==> !bad(xs[i])
  {
  }

  /** An object whose two properties carry markers for two keys, each
      answered by a value binding, holds both values after one
      `injectInto`. */
  lemma InjectTwoFields(w: World, n: NodeId, t: Ref, f1: Field, f2: Field, k1: Key, k2: Key, o1: NodeId, o2: NodeId, v1: Value, v2: Value)
    requires Valid(w) && n < |w.nodes| && t < |w.heap| && w.heap[t].fields == [f1, f2] && f1.name != f2.name
    requires FieldKey(f1) == Some(k1) && Owner(w, n, k1) == Some(o1)
    requires o1 < |w.nodes| && Lookup(w.nodes[o1].registry, k1) == Some(ValueRule(v1))
    requires FieldKey(f2) == Some(k2) && Owner(w, n, k2) == Some(o2)
    requires o2 < |w.nodes| && Lookup(w.nodes[o2].registry, k2) == Some(ValueRule(v2))
    ensures var r := InjectInto(w, n, t);
      && r.Success?
      && Read(r.value, t, f1.name) == Some(v1)
      && Read(r.value, t, f2.name) == Some(v2)
  {
    TwoMarkersResolve(w, n, t, f1, f2);
    InjectsBoundValue(w, n, t, 0, k1, o1, v1);
    InjectsBoundValue(w, n, t, 1, k2, o2, v2);
    var fs := InjectInto(w, n, t).value.heap[t].fields;
    ReadTwo(fs, f1.name, f2.name, v1, v2);
  }

  /** Reading either of two differently named properties. */
  lemma ReadTwo(fs: seq<Field>, p1: string, p2: string, v1: Value, v2: Value)
    requires |fs| == 2 && fs[0] == Field(p1, v1) && fs[1] == Field(p2, v2) && p1 != p2
    ensures ReadField(fs, p1) == Some(v1) && ReadField(fs, p2) == Some(v2)
  {
    assert fs[1..] == [Field(p2, v2)];
  }

  /** `{otherValue1: 'inject(name="one"):someValue', otherValue2:
      'inject(name="two"):someValue'}` gets each property the value bound
      under its own name. */
  lemma InjectByNamedType(w: World)
    requires Valid(w)
    ensures var s := TwoNames(w);
      var a := Allocate(s.world, Object([
        Field("otherValue1", Str("inject(name=\"" + "one" + "\"):" + "someValue")),
        Field("otherValue2", Str("inject(name=\"" + "two" + "\"):" + "someValue"))], []));
      var r := InjectInto(a.world, s.id, a.ref);
      && r.Success?
      && a.ref < |r.value.heap|
      && Read(r.value, a.ref, "otherValue1") == Some(Str("Hello World 1"))
      && Read(r.value, a.ref, "otherValue2") == Some(Str("Hello World 2"))
  {
    var s := TwoNames(w);
    var f1 := Field("otherValue1", Str("inject(name=\"" + "one" + "\"):" + "someValue"));
    var f2 := Field("otherValue2", Str("inject(name=\"" + "two" + "\"):" + "someValue"));
    NamedTypedMarker("otherValue1", "one", "someValue");
    NamedTypedMarker("otherValue2", "two", "someValue");
    var a := Allocate(s.world, Object([f1, f2], []));
    InjectTwoFields(a.world, s.id, a.ref, f1, f2, Key("someValue", Some("one")), Key("someValue", Some("two")),
      s.id, s.id, Str("Hello World 1"), Str("Hello World 2"));
  }

  /** A value bound on the root is handed out by the root, its child and
      its grandchild; a value bound on the child is handed out by the child
      and the grandchild, but not by the root, which throws for it. */
  lemma ParentMultipleLevelsUp(w: World)
    requires Valid(w)
    ensures var r := NewInjector(w);
      var c := CreateChildInjector(r.world, r.id);
      var g := CreateChildInjector(c.world, c.id);
      var w1 := Map(g.world, r.id, Key("someValue", None), ToValue(Hello));
      var w2 := Map(w1, c.id, Key("otherValue", None), ToValue(Str("Hello child!")));
      && GetInstance(w2, r.id, Key("someValue", None)) == Success(Resolved(Hello, w2))
      && GetInstance(w2, c.id, Key("someValue", None)) == Success(Resolved(Hello, w2))
      && GetInstance(w2, g.id, Key("someValue", None)) == Success(Resolved(Hello, w2))
      && GetInstance(w2, c.id, Key("otherValue", None)) == Success(Resolved(Str("Hello child!"), w2))
      && GetInstance(w2, g.id, Key("otherValue", None)) == Success(Resolved(Str("Hello child!"), w2))
      && GetInstance(w2, r.id, Key("otherValue", None)) == Failure(NotFound(Key("otherValue", None)))
  {
    var r := NewInjector(w);
    var c := CreateChildInjector(r.world, r.id);
    var g := CreateChildInjector(c.world, c.id);
    var some, other := Key("someValue", None), Key("otherValue", None);
    var w1 := Map(g.world, r.id, some, ToValue(Hello));
    var w2 := Map(w1, c.id, other, ToValue(Str("Hello child!")));
    assert w2.nodes[g.id] == g.world.nodes[g.id];
    assert w2.nodes[c.id].parent == Some(r.id);
    assert w2.nodes[r.id].parent.None?;
    assert !HasDirect(w2, g.id, some) && !HasDirect(w2, g.id, other);
    assert Lookup(w2.nodes[c.id].registry, some) == Lookup(c.world.nodes[c.id].registry, some);
    assert !HasDirect(w2, c.id, some);
    assert Lookup(w2.nodes[r.id].registry, other) == Lookup(r.world.nodes[r.id].registry, other);
    assert !HasDirect(w2, r.id, other);
    LocalWins(w2, r.id, some);
    DelegatesToParent(w2, c.id, r.id, some);
    DelegatesTwoLevels(w2, g.id, c.id, r.id, some);
    LocalWins(w2, c.id, other);
    DelegatesToParent(w2, g.id, c.id, other);
    RootMisses(w2, r.id, other);
  }

  /** `{someValue: 'inject'}` injected by an injector that maps `someValue`
      to a type gets a new instance of that type, which reads the type's
      `hello` property. */
  lemma InjectNewType(w: World)
    requires Valid(w)
    ensures var s := NewInjector(w);
      var w1 := Map(s.world, s.id, Key("someValue", None), ToType(HelloFactory));
      var a := Allocate(w1, Object([Field("someValue", Str("inject"))], []));
      var r := InjectInto(a.world, s.id, a.ref);
      && r.Success?
      && a.ref < |r.value.heap|
      && var got := Read(r.value, a.ref, "someValue");
      && got.Some? && got.value.Obj? && got.value.ref < |r.value.heap|
      && Read(r.value, got.value.ref, "hello") == Some(Hello)
  {
    var s := NewInjector(w);
    var k := Key("someValue", None);
    var w1 := Map(s.world, s.id, k, ToType(HelloFactory));
    var a := Allocate(w1, Object([Field("someValue", Str("inject"))], []));
    BareMarker("someValue");
    LocalWins(a.world, s.id, k);
    OneMarkerResolves(a.world, s.id, a.ref, Field("someValue", Str("inject")));
    InjectsTypeInstance(a.world, s.id, a.ref, 0, k, s.id, HelloFactory);
    var r := InjectInto(a.world, s.id, a.ref).value;
    assert |r.heap[a.ref].fields| == 1;
    var x := r.heap[a.ref].fields[0].value.ref;
    assert r.heap[a.ref].fields == [Field("someValue", Obj(x))];
  }

  /** The type whose instances carry `hello: 'Hello World'`. */
  const HelloFactory: Factory := Factory(1, [Field("hello", Hello)], [])

  /** An object listing `onPostConstruct` in `postConstructs` gets its
      marker injected and that method called exactly once. */
  lemma PostConstructAfterInjection(w: World)
    requires Valid(w)
    ensures var s := NewInjector(w);
      var w1 := Map(s.world, s.id, Key("someValue", None), ToValue(Hello));
      var a := Allocate(w1, Object([Field("someValue", Str("inject"))], ["onPostConstruct"]));
      var r := InjectInto(a.world, s.id, a.ref);
      && r.Success?
      && r.value.log == a.world.log + [Call(a.ref, "onPostConstruct", [Field("someValue", Hello)])]
      && Read(r.value, a.ref, "someValue") == Some(Hello)
  {
    BareMarker("someValue");
    InjectOneMarker(w, "someValue", "inject", Key("someValue", None), Hello, ["onPostConstruct"]);
    CallsOne(|w.heap|, "onPostConstruct", [Field("someValue", Hello)]);
  }

  /** One listed method gives one call. */
  lemma CallsOne(t: Ref, m: string, seen: seq<Field>)
    ensures Calls(t, [m], seen) == [Call(t, m, seen)]
  {
  }

  /** A class whose instances carry the marker `someValue` and list
      `onPostConstruct` in `postConstructs`. */
  const MyClass: Factory := Factory(2, [Field("someValue", Str("inject"))], ["onPostConstruct"])

  /** An instance created with `new` from a class that lists
      `onPostConstruct` gets its marker injected and that method called once,
      seeing the injected value. */
  lemma PostConstructOnNewInstance(w: World)
    requires Valid(w)
    ensures var s := NewInjector(w);
      var w1 := Map(s.world, s.id, Key("someValue", None), ToValue(Hello));
      var a := Allocate(w1, NewInstance(MyClass));
      var r := InjectInto(a.world, s.id, a.ref);
      && r.Success?
      && r.value.log == a.world.log + [Call(a.ref, "onPostConstruct", [Field("someValue", Hello)])]
      && Read(r.value, a.ref, "someValue") == Some(Hello)
  {
    assert NewInstance(MyClass) == Object([Field("someValue", Str("inject"))], ["onPostConstruct"]);
    PostConstructAfterInjection(w);
  }

  /** The factory whose instances carry `testVar: 'test'`. */
  const TestFactory: Factory := Factory(0, [Field("testVar", Str("test"))], [])

  /** Two instances of a type binding: changing `testVar` on the second
      leaves the first at `'test'`. */
  lemma TypeTwoUniqueInstances(w: World)
    requires Valid(w)
    ensures var s := NewInjector(w);
      var k := Key("someObject", None);
      var w1 := Map(s.world, s.id, k, ToType(TestFactory));
      var r1 := GetInstance(w1, s.id, k);
      && r1.Success?
      && var r2 := GetInstance(r1.value.world, s.id, k);
      && r2.Success? && r1.value.value.Obj? && r2.value.value.Obj?
      && var x1, x2 := r1.value.value.ref, r2.value.value.ref;
      && x1 < |r2.value.world.heap| && x2 < |r2.value.world.heap|
      && var w3 := Assign(r2.value.world, x2, "testVar", Str("hello world"));
      && Read(w3, x1, "testVar") == Some(Str("test"))
      && Read(w3, x2, "testVar") == Some(Str("hello world"))
  {
    var s := NewInjector(w);
    var k := Key("someObject", None);
    var w1 := Map(s.world, s.id, k, ToType(TestFactory));
    LocalWins(w1, s.id, k);
    TypeGivesFreshInstances(w1, s.id, k, s.id, TestFactory);
    TypeInstancesNotShared(w1, s.id, k, s.id, TestFactory, "testVar", Str("hello world"));
  }

  /** Two markers answered by one type binding receive two different objects
      in one `injectInto`. */
  lemma TwoTypeMarkersDistinct(w: World)
    requires Valid(w) && ValuesLive(w)
    ensures var s := NewInjector(w);
      var k := Key("someObject", None);
      var w1 := Map(s.world, s.id, k, ToType(TestFactory));
      var a := Allocate(w1, Object([Field("x", Str("inject:" + "someObject")), Field("y", Str("inject:" + "someObject"))], []));
      var r := InjectInto(a.world, s.id, a.ref);
      && r.Success?
      && |r.value.heap[a.ref].fields| == 2
      && r.value.heap[a.ref].fields[0].value != r.value.heap[a.ref].fields[1].value
  {
    var s := NewInjector(w);
    var k := Key("someObject", None);
    var w1 := Map(s.world, s.id, k, ToType(TestFactory));
    var fx := Field("x", Str("inject:" + "someObject"));
    var fy := Field("y", Str("inject:" + "someObject"));
    var a := Allocate(w1, Object([fx, fy], []));
    TypedMarker("x", "someObject");
    TypedMarker("y", "someObject");
    SpawnKeepsValuesLive(w, 0);
    RegistryKeepsValuesLive(s.world, s.id, k, ToType(TestFactory));
    ObjectsKeepValuesLive(w1, Object([fx, fy], []), 0, "", Null);
    LocalWins(a.world, s.id, k);
    TwoTypeMarkers(a.world, s.id, a.ref, fx, fy, k, TestFactory);
  }

  /** The lemma above for any two markers of one object answered by a type
      binding. */
  lemma TwoTypeMarkers(w: World, n: NodeId, t: Ref, fx: Field, fy: Field, k: Key, f: Factory)
    requires Valid(w) && ValuesLive(w) && n < |w.nodes| && t < |w.heap| && w.heap[t].fields == [fx, fy]
    requires FieldKey(fx) == Some(k) && FieldKey(fy) == Some(k)
    requires AnswerRule(w, n, k) == Some(TypeRule(f))
    ensures var r := InjectInto(w, n, t);
      && r.Success?
      && |r.value.heap[t].fields| == 2
      && r.value.heap[t].fields[0].value != r.value.heap[t].fields[1].value
  {
    assert TypeAnswered(w, n, fx);
    TwoMarkersResolve(w, n, t, fx, fy);
    var fs := w.heap[t].fields;
    assert TypeAnswered(w, n, fs[0]) && FieldKey(fs[1]).Some?;
  }

  /** Two requests of a singleton binding: changing `testVar` through the
      second is seen through the first. */
  lemma SingletonSameInstance(w: World)
    requires Valid(w)
    ensures var s := NewInjector(w);
      var k := Key("someObject", None);
      var w1 := Map(s.world, s.id, k, ToSingleton(TestFactory));
      var r1 := GetInstance(w1, s.id, k);
      && r1.Success?
      && var r2 := GetInstance(r1.value.world, s.id, k);
      && r2.Success? && r1.value.value.Obj? && r2.value.value.Obj?
      && var x1, x2 := r1.value.value.ref, r2.value.value.ref;
      && x1 < |r2.value.world.heap| && x2 < |r2.value.world.heap|
      && var w3 := Assign(r2.value.world, x2, "testVar", Str("hello world"));
      && Read(w3, x1, "testVar") == Read(w3, x2, "testVar") == Some(Str("hello world"))
  {
    var s := NewInjector(w);
    var k := Key("someObject", None);
    var w1 := Map(s.world, s.id, k, ToSingleton(TestFactory));
    LocalWins(w1, s.id, k);
    SingletonChangesShared(w1, s.id, k, s.id, TestFactory, None, "testVar", Str("hello world"));
  }

  /** A fresh injector throws the not-found error, with its exact text, for
      a type it does not bind, with and without a name. */
  lemma NoMappingError(w: World)
    requires Valid(w)
    ensures var s := NewInjector(w);
      && GetInstance(s.world, s.id, Key("someObject", None)) == Failure(NotFound(Key("someObject", None)))
      && GetInstance(s.world, s.id, Key("someObject", Some("someName"))) == Failure(NotFound(Key("someObject", Some("someName"))))
  {
    var s := NewInjector(w);
    assert Key("someObject", None) != InjectorKey;
    RootMisses(s.world, s.id, Key("someObject", None));
    RootMisses(s.world, s.id, Key("someObject", Some("someName")));
  }
}

=== FILE: values.dfy ===
/** The JavaScript values the container stores and hands out, and the plain
    objects it injects into. Object identity is an index into a heap: two
    references are the same object exactly when their indices are equal. */
module Values {
  import opened Wrappers

  /** An index into the heap of objects. */
  type Ref = nat

  /** An index into the list of injector nodes. */
  type NodeId = nat

  /** A value as the container sees it: a string (possibly an injection
      marker), a reference to a heap object, a reference to an injector,
      or `null`. */
  datatype Value = Str(s: string) | Obj(ref: Ref) | Inj(node: NodeId) | Null

  /** One own enumerable property of an object. */
  datatype Field = Field(name: string, value: Value)

  /** A plain object: its own properties in enumeration order, and the names
      listed by its `postConstructs` property (empty when it has none). */
  datatype Object = Object(fields: seq<Field>, postConstructs: seq<string>)

  /** A constructor function, reduced to an identity, the properties every
      instance it creates can read (those the constructor assigns and those
      on its prototype), and the names its instances list in
      `postConstructs` (empty when they have none). */
  datatype Factory = Factory(id: nat, instanceFields: seq<Field>, postConstructs: seq<string>)

  /** The object `new f()` yields, before anything is done to it. */
  function NewInstance(f: Factory): (o: Object)
    ensures o.fields == f.instanceFields && o.postConstructs == f.postConstructs
  {
    Object(f.instanceFields, f.postConstructs)
  }

  /** Reading property `name`: the first property of that name, if any. */
  function ReadField(fields: seq<Field>, name: string): (r: Option<Value>)
    ensures r.None? <==> forall i :: 0 <= i < |fields| ==> fields[i].name != name
    ensures r.Some? ==> exists i :: 0 <= i < |fields| && fields[i] == Field(name, r.value)
  {
    if fields == [] then None
    else if fields[0].name == name then Some(fields[0].value)
    else
      var r := ReadField(fields[1..], name);
      assert r.Some? ==> exists i :: 0 <= i < |fields[1..]| && fields[1..][i] == Field(name, r.value);
      r
  }

  /** Assigning `obj.name = v`: overwrite the first property of that name,
      or add a new property at the end when there is none. */
  function WriteField(fields: seq<Field>, name: string, v: Value): (r: seq<Field>)
    decreases |fields|
  {
    if fields == [] then [Field(name, v)]
    else if fields[0].name == name then [Field(name, v)] + fields[1..]
    else [fields[0]] + WriteField(fields[1..], name, v)
  }

  /** A property assignment is seen by the next read of the same property,
      and by no read of any other property. */
  lemma {:induction false} ReadAfterWrite(fields: seq<Field>, name: string, other: string, v: Value)
    ensures ReadField(WriteField(fields, name, v), name) == Some(v)
    ensures other != name ==> ReadField(WriteField(fields, name, v), other) == ReadField(fields, other)
    decreases |fields|
  {
    if fields != [] && fields[0].name != name {
      ReadAfterWrite(fields[1..], name, other, v);
      assert WriteField(fields, name, v)[1..] == WriteField(fields[1..], name, v);
    }
  }
}

=== FILE: wrappers.dfy ===
/** The two wrappers the model returns instead of JavaScript's `null`
    and its exceptions. Both support Dafny's `:-` operator, which is why
    each carries `IsFailure`, `PropagateFailure` and `Extract`. */
module Wrappers {

  /** Something that may be absent: a missing registry entry, a root's
      parent, a string that is not a marker. */
  datatype Option<+T> = None | Some(value: T) {

    /** `:-` stops at an absent value. */
    predicate IsFailure() {
      None?
    }

    /** An absent value stays absent whatever type is expected next. */
    function PropagateFailure<U>(): Option<U>
      requires None?
    {
      None
    }

    /** What `:-` binds when the value is present. */
    function Extract(): T
      requires Some?
    {
      value
    }

    /** The value if present, otherwise the fallback. */
    function ValueOr(fallback: T): T {
      if Some? then value else fallback
    }
  }

  /** The outcome of an injector operation that may throw: the value it
      returns, or the error it throws in the JavaScript implementation. */
  datatype Result<+R, +E> = Success(value: R) | Failure(error: E) {

    /** `:-` stops at a thrown error. */
    predicate IsFailure() {
      Failure?
    }

    /** A thrown error passes through unchanged to the caller. */
    function PropagateFailure<U>(): Result<U, E>
      requires Failure?
    {
      Failure(error)
    }

    /** What `:-` binds when the operation returned normally. */
    function Extract(): R
      requires Success?
    {
      value
    }
  }
}
